=== FILE: README.md ===
# SDL_EXT_GLSL shader pipeline in Dafny

A model of the GLSL helper library in SDL_EXT_GLSL and the proofs about it.
The library does four things:

- It loads a vertex and a fragment shader from one text file. Each section sits between a start and an end comment line.
- It compiles and links them through the ARB shader-object entry points.
- It keeps two process-wide flags, `SDL_GLSL_SUPPORTED` and `SDL_GLSL_READY`, plus the batch size `SHADER_COUNT`. These gate drawing and cleanup.
- It rounds texture sizes up to powers of two for OpenGL 1.x.

The model has six modules:

- `Fgets` (fgets_stream.dfy): a text stream seen through `fgets` with a 500-byte buffer. A stream becomes the sequence of reads those calls return.
- `SectionReader` (section_reader.dfy): `readSectionFromFile` and `loadGLSLFile` over that sequence of reads. `strcmp` becomes equality of a whole read.
- `GlslTypes` (glsl_types.dfy): the `Shader` record and the alphabet of GL calls.
- `GlslShader` (glsl_shader.dfy): one shader's compile, link and `tex0` binding.
  - The GL is an oracle. It answers two compile statuses, the link status, the `tex0` location and the final error flag.
  - New handles come from a counter, so every created object is fresh.
  - Each operation returns the GL calls it issues, in order.
- `GlslLifecycle` (glsl_lifecycle.dfy): the global flags, `initShaders`, the `compileShaders` batch loop, `glslShaderDraw`, `destroyShaderProgram` and `freeShaders`.
  - `freeShaders` returns the releases it performs: the `free` of each owned string, and the GL deletes.
  - The batch loop is proved for any build step that meets the contract `IsBuildStep`. `CompileShaderProgramIsBuildStep` shows that `compileShaderProgram` meets it, and `CompileShaders` uses that step. The source facts of the batch lemmas rest on a second step contract, `FeedsOwnSourcesStep`, which `CompileShaderProgramFeedsOwnSources` shows `compileShaderProgram` meets.
- `PowerOfTwo` (power_of_two.dfy): `nearestPowerOfTwo` and the choice of texture size in `loadTextureBMP`.

## Model

| member | source | states |
|---|---|---|
| Fgets.SplitReads | src/glsl_shader.c:179-187 | Every read `fgets(line, 500, file)` returns has 1 to 499 characters and a newline only at its end. Each read except the last is full or ends a line. Concatenating the reads gives back the stream. |
| Fgets.SplitAtLineBoundary | src/glsl_shader.c:179-187 | A stream split at a line end splits its reads at the same place: reads never straddle a newline. |
| Fgets.ShortLineIsOneRead | src/glsl_shader.c:179-187 | A line of at most 499 characters, newline included, that starts the stream comes back as exactly one read. |
| Fgets.LongLineSplitsAtBuffer | src/glsl_shader.c:170-179 | A line longer than the buffer is cut after 499 characters. A tag that starts exactly there comes back as a read of its own, so it matches `strcmp` although it is not on a line of its own. |
| SectionReader.IndexOf | src/glsl_shader.c:179-181 | The position of the first read equal to the tag, or the length when there is none: no earlier read matches. |
| SectionReader.SkipPastTag | src/glsl_shader.c:178-181 | The first loop consumes reads up to and including the first start-tag read, or the whole stream. |
| SectionReader.TakeUntilTag | src/glsl_shader.c:183-187 | The second loop appends every read before the next end-tag read and consumes that tag. Without an end tag it appends everything up to end of file. |
| SectionReader.ReadSectionFromFile | src/glsl_shader.c:168-196 | The section is the reads strictly between the first start tag and the next end tag. The stream is left just past the end tag. With no start tag, the result is empty and the stream is at end of file. |
| SectionReader.ScanLeavesSuffix | src/glsl_shader.c:179-187 | The scan only moves forward. What it leaves is a suffix of the stream that starts after the start tag it found. |
| SectionReader.SectionNulFree | src/glsl_shader.c:186-190 | A section read from a NUL-free stream is a C string, so `strlen` sees all of it. |
| SectionReader.ExtractsBetweenTags | src/glsl_shader.c:178-187 | On pre, start tag, body, end tag, post, the section is exactly the body and the stream is left at post. This needs no start tag in pre and no end tag in body. |
| SectionReader.ExtractsToEndOfFile | src/glsl_shader.c:183-187 | With no end tag after the start tag, every remaining read is appended up to end of file. |
| SectionReader.StartTagAbsentYieldsNothing | src/glsl_shader.c:174-181 | With no start tag, the result is the empty string and the whole stream is consumed. |
| SectionReader.LoadGLSLFile | src/glsl_shader.c:198-226 | The name is a copy of the file name. Both sources are C strings within the 100000-byte buffer. |
| SectionReader.FragmentScanMissesEarlierTag | src/glsl_shader.c:213-219 | The fragment scan starts where the vertex scan stopped, so a fragment start tag seen only before the vertex start tag is never found. |
| SectionReader.FragmentBeforeVertexIsLost | src/glsl_shader.c:213-219 | A file with its fragment block before its vertex block loads an empty fragment source. |
| SectionReader.TagLineIsOneRead | src/glsl_shader.c:213-219 | A tag line that starts at a line boundary is read as exactly that tag. |
| SectionReader.SplitsWellFormedFile | src/glsl_shader.c:213-219 | In a file laid out as text, vertex block, text, fragment block, text, with tags on lines of their own, each tag comes back as its own read. |
| SectionReader.ScansWellFormedStream | src/glsl_shader.c:213-219 | On such a stream, the vertex scan returns the vertex body and the fragment scan, over what remains, returns the fragment body. |
| SectionReader.LoadsWellFormedFile | src/glsl_shader.c:198-226 | Loading a well-formed file meets the preconditions and yields exactly the two bodies between the tags. |
| GlslShader.CheckGLSuccessStatus | src/glsl_shader.c:24-35 | Success iff the status is nonzero. The status is queried first. The info log is fetched iff it failed. Only that object is touched. |
| GlslShader.CompileShaderObject | src/glsl_shader.c:54-68 | The source is set and compiled before the compile status is queried. Success iff the status is nonzero. The log is fetched iff it failed. Only that shader object is touched. |
| GlslShader.LinkCompiledShadersWithProgram | src/glsl_shader.c:37-52 | Both shaders are attached, then the program is linked, then the link status is queried. Success iff it is nonzero. Every call after the first four acts only on the program. |
| GlslShader.BindTex0 | src/glsl_shader.c:90-94 | The program is bound first and 0 last. `tex0` is set to unit 0 iff its location is `>= 0`, and no other uniform is set. Nothing but binding, the uniform lookup and the uniform store is called. |
| GlslShader.CreateAndCompile | src/glsl_shader.c:79-85 | The trace opens with creating the shader object of the given stage, handing it the given source, compiling it and querying its compile status, in that order. No program is attached, linked, bound or fed. |
| GlslShader.CompileStages | src/glsl_shader.c:73-85 | The error flag is cleared and the program created before any compile. It succeeds iff both compiles succeed. Handles are fresh and increasing. The fragment handle is assigned only after the vertex shader compiles. The trace opens by handing the vertex source to the vertex object and, once that compiles, the fragment source to the fragment object. Nothing touches the program. |
| GlslShader.CompileShaderProgram | src/glsl_shader.c:70-97 | Success iff both compiles, the link and the final error check all succeed. A missing `tex0` is never a failure. Only the handles change. They are fresh and the program comes first. The trace opens as for `CompileStages`, so each source goes to the object of its own stage. |
| GlslShader.LinkAndBind | src/glsl_shader.c:88-96 | Succeeds iff the link succeeds and no GL error is raised. Both shaders are attached and the program linked first. It creates nothing and feeds no source. `tex0` is set, only to unit 0, iff the link succeeded and the uniform exists. After a successful link the last call reads the error flag. |
| GlslShader.StageFeedsOnlyItsSource | src/glsl_shader.c:79-85 | Compiling one stage sets no source except the given one, and only on its own object. |
| GlslShader.StagesFeedOnlyOwnSources | src/glsl_shader.c:79-85 | Across both compiles, only the vertex source goes to the vertex object, and only the fragment source to the fragment object, the latter only once the vertex shader compiled. |
| GlslShader.CompilesOwnSources | src/glsl_shader.c:70-97 | The same holds for the whole of `compileShaderProgram`: no other source is set anywhere. |
| GlslShader.FragmentCreatedOnlyAfterVertexCompiles | src/glsl_shader.c:79-85 | The fragment shader object is created iff the vertex shader compiled. |
| GlslShader.LinkOnlyAfterBothCompile | src/glsl_shader.c:81-88 | The program is linked iff both shaders compiled. No attach or link happens otherwise. |
| GlslShader.Tex0BoundOnlyWhenDeclared | src/glsl_shader.c:88-94 | `tex0` is set iff both compiles and the link succeeded and the uniform exists, and only ever to unit 0. |
| GlslShader.CreatesOnlyItsObjects | src/glsl_shader.c:74-94 | The only GL objects created are the program and shader objects the shader ends up holding. Linking and binding `tex0` create nothing. |
| GlslShader.ProgramCreatedFirst | src/glsl_shader.c:74-77 | Every compile creates its program object, whatever fails later. |
| GlslLifecycle.InitShaders | src/glsl_shader.c:109-123 | Afterwards the shaders are not ready. Support equals the result of resolving the extension entry points. The return value is the support flag. The batch size is kept. |
| GlslLifecycle.FirstFailure | src/glsl_shader.c:135-140 | The index of the first shader in range the GL does not build, or the end of the range. |
| GlslLifecycle.CompileShaderProgramIsBuildStep | src/glsl_shader.c:70-97 | `compileShaderProgram` meets the contract the batch loop relies on: success iff the GL builds the shader, text kept, fresh handles, a program created, no object created but the shader's own, and, on success, a linked program. |
| GlslLifecycle.CompileShaderProgramFeedsOwnSources | src/glsl_shader.c:79-85 | `compileShaderProgram` hands the vertex source to the vertex object it returns and, once the vertex shader compiled, the fragment source to the fragment object it returns. |
| GlslLifecycle.CompileFrom | src/glsl_shader.c:135-140 | The loop keeps every name and source. Shaders after the first failure, or out of range, are untouched. Every shader it reaches gets a program handle newer than any before the batch. The vertex and fragment handles are covered by `BatchHandlesFresh` and `BatchFragmentHandlesFresh`. |
| GlslLifecycle.BatchSucceedsIffAllBuild | src/glsl_shader.c:135-144 | The loop succeeds iff every shader in range builds. |
| GlslLifecycle.BatchHandlesIncrease | src/glsl_shader.c:135-140 | Take two shaders the loop reached, one earlier than the other. The earlier one's program, vertex and fragment handles increase in that order, and all lie below the later one's program handle. So no handle is reused within a batch. |
| GlslLifecycle.BatchHandlesFresh | src/glsl_shader.c:135-140 | Every shader the loop reached, the failing one included, holds a program handle and then a vertex handle. Both are newer than any handle before the batch and no newer than the batch's last. |
| GlslLifecycle.BatchFragmentHandlesFresh | src/glsl_shader.c:135-140 | Every shader the loop reached that built holds a fragment handle newer than its vertex handle and no newer than the batch's last. A shader whose vertex compile failed keeps its old fragment handle. |
| GlslLifecycle.BatchCreatesOnlyForReached | src/glsl_shader.c:135-140 | Every object the loop creates belongs to a shader it reached, so nothing is created after the first failure. |
| GlslLifecycle.BatchFeedsVertexSources | src/glsl_shader.c:135-140 | Every shader the loop reached, the failing one included, had its own vertex source handed to the vertex object it ends up holding. |
| GlslLifecycle.BatchFeedsFragmentSources | src/glsl_shader.c:135-140 | Every shader the loop reached whose vertex shader compiled had its own fragment source handed to the fragment object it ends up holding. |
| GlslLifecycle.SuccessfulBatchLinksEveryProgram | src/glsl_shader.c:135-140 | After a successful batch, every shader's program was linked during it. |
| GlslLifecycle.BatchCreatesReachedPrograms | src/glsl_shader.c:135-140 | Every shader the loop reached, the failing one included, had its program created. |
| GlslLifecycle.CompileShaders | src/glsl_shader.c:125-145 | The count becomes `num_shaders` and support is unchanged. The return value equals the ready flag, which is true iff GLSL is supported and every shader in range builds. Without support, no GL call is made and the shaders are unchanged. Shaders out of range or after the first failure are never touched. Every object created belongs to a shader the loop reached. |
| GlslLifecycle.GlslShaderDraw | src/glsl_shader.c:161-166 | A GL call is made iff GLSL is supported and ready, and at most one is made. The call binds the shader's program when enabling and 0 when disabling. |
| GlslLifecycle.DestroyShaderProgram | src/glsl_shader.c:99-107 | When GLSL is supported and ready, there are exactly three calls, all deletes. A handle is deleted iff it is one of the shader's three, and the program is deleted last. Otherwise nothing is called. |
| GlslLifecycle.FreeFromFreesRange | src/glsl_shader.c:150-155 | From index `i`, the loop frees the strings of exactly the shaders from `i` up to the count. |
| GlslLifecycle.FreeFromDeletesOnlyOwned | src/glsl_shader.c:150-158 | From index `i`, the loop makes GL calls only when supported and ready. It makes no call but deletes, and deletes no object except one held by a shader from `i` up to the count. |
| GlslLifecycle.FreeFromFreesOnce | src/glsl_shader.c:150-155 | From index `i`, the loop frees each string of each shader from `i` up to the count exactly once. |
| GlslLifecycle.FreeFromLength | src/glsl_shader.c:150-158 | From index `i`, the loop releases six things per shader up to the count when supported and ready, and three otherwise. |
| GlslLifecycle.FreeFromDeletesAll | src/glsl_shader.c:150-158 | When supported and ready, the loop from index `i` deletes all three objects of every shader from `i` up to the count. |
| GlslLifecycle.FreeShaders | src/glsl_shader.c:147-159 | The three strings of exactly the first `SHADER_COUNT` shaders are freed, each exactly once, whatever the flags. GL objects are deleted only when supported and ready. Then all three objects of each of those shaders are deleted, and no other object is. There are exactly three GL calls per shader. |
| GlslLifecycle.DrawIsInertAfterInit | src/glsl_shader.c:161-166 | Drawing right after `initShaders`, or before any initialisation, makes no GL call. |
| GlslLifecycle.ReadyBatchDrawsItsPrograms | src/glsl_shader.c:125-166 | After a batch that built every shader, drawing shader `k` binds the fresh program the batch linked for it, or 0 when disabling. |
| GlslLifecycle.ReadyBatchFreesEverything | src/glsl_shader.c:147-159 | After a batch that built every shader, freeing releases every string and deletes all three GL objects of each shader. The programs deleted are the ones the batch created. |
| GlslLifecycle.FailedBatchLeaksGlObjects | src/glsl_shader.c:99-107 | After a failed batch, freeing frees every string in the batch but makes no GL call, although the first shader's program was created. Its GL objects are never deleted. |
| PowerOfTwo.GrowFrom | src/sdl_gl.c:13-14 | The doubling loop stays on powers of two. It ends at or above the input, and its half is below the input unless it is 1. It never exceeds 2^30. |
| PowerOfTwo.NearestPowerOfTwo | src/sdl_gl.c:12-16 | The result is a power of two, at least the input, and 1 or twice something below the input. Every input up to 1, zero and negatives included, gives 1. |
| PowerOfTwo.Minimality | src/sdl_gl.c:13-14 | No power of two at least the input is smaller than the result. |
| PowerOfTwo.Idempotence | src/sdl_gl.c:12-16 | Rounding a rounded value changes nothing. |
| PowerOfTwo.Monotonicity | src/sdl_gl.c:12-16 | A larger input never rounds to a smaller power. |
| PowerOfTwo.TextureSize | src/sdl_gl.c:116-122 | When `forceNrSqr` is set or the GL version starts with '1', each side is the smallest power of two at least the bitmap's. Otherwise the bitmap's size is kept, whatever it is. |
| PowerOfTwo.TextureFitsBitmap | src/sdl_gl.c:116-123 | The chosen surface is never smaller than the bitmap. A bitmap whose sides are powers of two keeps its size on every GL. |

## Left out

- Window, context and GL setup in sdl_gl.c, frustum and camera math, and the pixel work of `loadTextureBMP`: these are SDL and OpenGL calls, floating point and the matrix stack, with no logic of their own. Only the size choice is modelled.
- `createMissingGlShaderFunctions` (src/glsl_ext.c): an all-or-nothing probe of extension entry points. Only its boolean result is kept, as the `extensionsResolved` parameter of `InitShaders`.
- src/test_lib.c, the demo loop: it is not library logic.
- Version strings (`SDL_GLSL_VERSION`, `SDL_GL_VERSION`): these are `snprintf` copies of driver strings. The GL version enters `TextureSize` as a plain string.
- Diagnostics: the `printf` messages and the text of info logs. Fetching the info log is kept as a call in the trace.
- Opening the file, `exit(1)`, `malloc`/`realloc` failure and the missing `fclose`: the model starts from a stream that opened successfully. `LoadGLSLFile` takes the file's contents as a string.
- GL handle values: the GL is modelled as handing out consecutive fresh handles above the last one. Real drivers only promise distinct nonzero handles.
- Object creation never fails in the model. `glCreateProgramObjectARB` and `glCreateShaderObjectARB` return 0 on failure, and src/glsl_shader.c:77-84 never checks for it. The model always hands out a fresh nonzero handle. The fresh and increasing handle contracts of `CompileStages`, `CompileShaderProgram`, `CompileFrom`, `BatchHandlesIncrease`, `BatchHandlesFresh` and `BatchFragmentHandlesFresh` rely on this.
- Fgets.SplitReads: one Dafny `char` stands for one byte of the file. `fgets`'s 499-character limit and the 100000-byte section buffer count bytes. On a file with multi-byte UTF-8 text, the real reads are cut after 499 bytes, possibly inside a character, and a section of fewer than 100000 characters can still overrun the buffer. `Loadable` and `MaxSourceSize` are stated in the same per-byte terms.
- LoadGLSLFile: the C code leaves the three handles uninitialised; the model sets them to 0.
- ReadSectionFromFile: the 100000-byte buffer is not modelled as truncation. `strncat` bounds what it copies, not where it writes, so a longer section overruns the buffer. `Loadable` therefore requires each section to fit, and both file name and contents to hold no NUL byte.
- NearestPowerOfTwo: inputs above 2^30 are excluded by a precondition, since the shift then overflows a 32-bit `int`.
- FreeShaders: the contract states which frees and deletes happen, how many there are, and that no others happen, but not their order. The body keeps the C order: per shader, three frees, then the deletes.
- FreeShaders: the array must hold at least `SHADER_COUNT` shaders. The C loop would read past a shorter array.

Two points where the code behaves differently from what a reader might expect. The model follows the code in both:

- `freeShaders` calls `glDeleteObject` only when `SDL_GLSL_READY` is set (src/glsl_shader.c:102). A failed batch leaves that flag false, so the GL objects the batch created are never deleted. Only the strings are freed (`FailedBatchLeaksGlObjects`).
- `readSectionFromFile` never checks the 100000-byte capacity (src/glsl_shader.c:184-187). A line longer than the read buffer is not truncated either: it arrives as several reads, and all of them are appended.

=== FILE: fgets_stream.dfy ===
/**
 A text stream as seen through `fgets(line, MAX_LINE_SIZE, file)` (section
 7.21.7.2 of ISO/IEC 9899:2011): every call returns at most MAX_LINE_SIZE - 1
 characters, stops just after a newline, and returns NULL once nothing is left.
 A stream is therefore modelled as the sequence of reads those calls return.
 One `char` of the model stands for one byte (one C `char`) of the file.
 */
module Fgets {

  /** Size of the `line` buffer handed to `fgets`. */
  const MaxLineSize: nat := 500

  /** At most this many characters come back from one read (one byte is the NUL). */
  const MaxReadChars: nat := MaxLineSize - 1

  /** The characters of all reads, in order. */
  function Flatten(rs: seq<string>): string
  {
    if rs == [] then "" else rs[0] + Flatten(rs[1..])
  }

  /** A C string: no embedded NUL, so `strcmp` and `strncat` see all of it. */
  predicate NulFree(s: string)
  {
    forall k :: 0 <= k < |s| ==> s[k] != '\0'
  }

  /** One value `fgets` can return: nonempty, bounded, a newline only at its end. */
  predicate IsRead(r: string)
  {
    && 1 <= |r| <= MaxReadChars
    && forall k :: 0 <= k < |r| - 1 ==> r[k] != '\n'
  }

  /** A physical line short enough to come back from a single read. */
  predicate IsShortLine(l: string)
  {
    IsRead(l) && l[|l| - 1] == '\n'
  }

  /** Empty, or finished by a newline: the next read starts a fresh line. */
  predicate EndsLine(s: string)
  {
    s == [] || s[|s| - 1] == '\n'
  }

  /** `k` is where a read starting at the head of `text` stops. */
  predicate ReadStopsAt(text: string, k: nat)
  {
    && 1 <= k <= |text|
    && k <= MaxReadChars
    && (forall j :: 0 <= j < k - 1 ==> text[j] != '\n')
    && (k == |text| || k == MaxReadChars || text[k - 1] == '\n')
  }

  function ScanRead(text: string, i: nat): (k: nat)
    requires i < |text| && i < MaxReadChars
    requires forall j :: 0 <= j < i ==> text[j] != '\n'
    ensures ReadStopsAt(text, k)
    decreases |text| - i
  {
    if text[i] == '\n' || i + 1 == |text| || i + 1 == MaxReadChars then i + 1
    else ScanRead(text, i + 1)
  }

  /** Length of the next read on a stream whose remaining contents are `text`. */
  function ReadLength(text: string): (k: nat)
    requires |text| > 0
    ensures ReadStopsAt(text, k)
  {
    ScanRead(text, 0)
  }

  /** The reads `fgets` returns on `text`, until it returns NULL at end of file. */
  function SplitReads(text: string): (rs: seq<string>)
    ensures forall i :: 0 <= i < |rs| ==> IsRead(rs[i])
    ensures forall i :: 0 <= i < |rs| - 1 ==> |rs[i]| == MaxReadChars || EndsLine(rs[i])
    ensures Flatten(rs) == text
    decreases |text|
  {
    if text == [] then []
    else
      var k := ReadLength(text);
      var rest := SplitReads(text[k..]);
      assert ([text[..k]] + rest)[1..] == rest;
      assert text[..k] + text[k..] == text;
      [text[..k]] + rest
  }

  /** A scan inside a newline-terminated prefix never looks past it. */
  lemma {:induction false} ScanStaysInLine(a: string, b: string, i: nat)
    requires EndsLine(a) && i < |a| && i < MaxReadChars
    requires forall j :: 0 <= j < i ==> a[j] != '\n'
    ensures ScanRead(a + b, i) == ScanRead(a, i)
    decreases |a| - i
  {
    assert (a + b)[i] == a[i];
    if a[i] == '\n' || i + 1 == |a| || i + 1 == MaxReadChars {
    } else {
      ScanStaysInLine(a, b, i + 1);
    }
  }

  /** A scan over characters that hold no newline runs to the buffer limit. */
  lemma {:induction false} ScanFillsBuffer(text: string, i: nat)
    requires i < MaxReadChars < |text|
    requires forall j :: 0 <= j < MaxReadChars ==> text[j] != '\n'
    ensures ScanRead(text, i) == MaxReadChars
    decreases MaxReadChars - i
  {
    if i + 1 < MaxReadChars {
      ScanFillsBuffer(text, i + 1);
    }
  }

  /** Splitting at a line boundary splits the reads there too. */
  lemma {:induction false} SplitAtLineBoundary(a: string, b: string)
    requires EndsLine(a)
    ensures SplitReads(a + b) == SplitReads(a) + SplitReads(b)
    decreases |a|
  {
    if a == [] {
      assert a + b == b;
    } else {
      var k := ReadLength(a);
      ScanStaysInLine(a, b, 0);
      assert (a + b)[..k] == a[..k];
      assert (a + b)[k..] == a[k..] + b;
      assert EndsLine(a[k..]);
      SplitAtLineBoundary(a[k..], b);
    }
  }

  /** A short line at the head of the stream is exactly one read. */
  lemma ShortLineIsOneRead(l: string, rest: string)
    requires IsShortLine(l)
    ensures SplitReads(l + rest) == [l] + SplitReads(rest)
  {
    assert ReadLength(l) == |l|;
    assert l[..|l|] == l;
    assert l[|l|..] == [];
    assert SplitReads(l) == [l];
    SplitAtLineBoundary(l, rest);
  }

  /** A physical line longer than one read is cut into reads at the buffer size,
      so a tag that starts exactly MAX_LINE_SIZE - 1 characters into a line
      comes back as a read of its own. */
  lemma LongLineSplitsAtBuffer(filler: string, l: string, rest: string)
    requires |filler| == MaxReadChars
    requires forall k :: 0 <= k < |filler| ==> filler[k] != '\n'
    requires IsShortLine(l)
    ensures SplitReads(filler + l + rest) == [filler, l] + SplitReads(rest)
  {
    var text := filler + (l + rest);
    ScanFillsBuffer(text, 0);
    assert text[..MaxReadChars] == filler;
    assert text[MaxReadChars..] == l + rest;
    ShortLineIsOneRead(l, rest);
    assert filler + l + rest == text;
  }
}

=== FILE: glsl_lifecycle.dfy ===
/**
 The library-level life cycle of glsl_shader.c: the two global flags
 `SDL_GLSL_SUPPORTED` and `SDL_GLSL_READY`, the batch size `SHADER_COUNT`
 remembered by `compileShaders`, and the operations that read them:
 `initShaders`, `compileShaders`, `glslShaderDraw`, `destroyShaderProgram`
 and `freeShaders`.
 */
module GlslLifecycle {
  import opened GlslTypes
  import opened GlslShader

  /** The globals: both flags and the `int` batch size. */
  datatype GlslState = GlslState(supported: bool, ready: bool, shaderCount: int)

  /** Static storage before any call: both flags false, count zero. */
  const Startup: GlslState := GlslState(false, false, 0)

  /** Result of `initShaders`: the new globals and the value returned. */
  datatype Inited = Inited(state: GlslState, ok: bool)

  /** `initShaders`. `extensionsResolved` is what `createMissingGlShaderFunctions`
      answers (whether every ARB entry point was found). The shaders are never
      ready right after it, and the batch size is left alone. */
  function InitShaders(st: GlslState, extensionsResolved: bool): (r: Inited)
    ensures !r.state.ready
    ensures r.state.supported <==> extensionsResolved
    ensures r.ok == r.state.supported
    ensures r.state.shaderCount == st.shaderCount
  {
    Inited(GlslState(extensionsResolved, false, st.shaderCount), extensionsResolved)
  }

  // ---------------------------------------------------------------- batch

  /** Index of the first shader in `[i, n)` the GL does not build, or the end
      of the range (`i` itself when the range is empty). */
  function FirstFailure(answers: seq<GlAnswers>, i: nat, n: int): (f: nat)
    requires i <= |answers| && n <= |answers|
    ensures i <= f && (f == i || f <= n)
    ensures f <= |answers|
    ensures forall k :: i <= k < f ==> Succeeds(answers[k])
    ensures f < n ==> !Succeeds(answers[f])
    decreases |answers| - i
  {
    if n <= i || !Succeeds(answers[i]) then i else FirstFailure(answers, i + 1, n)
  }

  /** Shader `k` is one the loop from `i` reaches: in range and not after the
      first failure. */
  predicate Attempted(answers: seq<GlAnswers>, i: nat, n: int, k: int)
    requires i <= |answers| && n <= |answers|
  {
    i <= k < n && k <= FirstFailure(answers, i, n)
  }

  /** After a shader that builds, the loop reaches it and exactly the shaders
      the loop from the next index reaches. */
  lemma AttemptedAfterBuild(answers: seq<GlAnswers>, i: nat, n: int)
    requires i < n <= |answers| && Succeeds(answers[i])
    ensures forall k :: Attempted(answers, i, n, k) <==> k == i || Attempted(answers, i + 1, n, k)
  {
    assert FirstFailure(answers, i, n) == FirstFailure(answers, i + 1, n);
  }

  /** At a shader that fails, the loop reaches that shader and no other. */
  lemma AttemptedAtFailure(answers: seq<GlAnswers>, i: nat, n: int)
    requires i < n <= |answers| && !Succeeds(answers[i])
    ensures forall k :: Attempted(answers, i, n, k) <==> k == i
  {
    assert FirstFailure(answers, i, n) == i;
  }

  /** When every shader in a nonempty range builds, the loop runs to its end. */
  lemma {:induction false} AllBuildReachesEnd(answers: seq<GlAnswers>, i: nat, n: int)
    requires i <= |answers| && n <= |answers|
    requires forall k :: i <= k < n ==> Succeeds(answers[k])
    ensures i < n ==> FirstFailure(answers, i, n) == n
    decreases |answers| - i
  {
    if i < n {
      AllBuildReachesEnd(answers, i + 1, n);
    }
  }

  /** One call of `compileShaderProgram` as the batch loop sees it. */
  type BuildStep = (Shader, GlAnswers, Handle) -> Compiled

  /** What the loop relies on from its step: success exactly when the GL
      builds the shader, the text kept, fresh handles above `last` (the
      program first, and created in the trace), no object created but the
      shader's own, and a program that was linked whenever it succeeded. */
  ghost predicate IsBuildStep(step: BuildStep)
  {
    forall s: Shader, a: GlAnswers, l: Handle ::
      && (step(s, a, l).ok <==> Succeeds(a))
      && SameText(step(s, a, l).shader, s)
      && l < step(s, a, l).shader.program < step(s, a, l).shader.vertShader <= step(s, a, l).last
      && CreateProgramObject(step(s, a, l).shader.program) in step(s, a, l).calls
      && (forall c, h :: c in step(s, a, l).calls && Creates(c, h) ==> Owns(step(s, a, l).shader, h))
      && (step(s, a, l).ok ==>
            && step(s, a, l).shader.vertShader < step(s, a, l).shader.fragShader <= step(s, a, l).last
            && LinkProgram(step(s, a, l).shader.program) in step(s, a, l).calls)
  }

  lemma CompileShaderProgramIsBuildStep()
    ensures IsBuildStep(CompileShaderProgram)
  {
    forall s: Shader, a: GlAnswers, l: Handle
      ensures var r := CompileShaderProgram(s, a, l);
              && CreateProgramObject(r.shader.program) in r.calls
              && (forall c, h :: c in r.calls && Creates(c, h) ==> Owns(r.shader, h))
              && (r.ok ==> LinkProgram(r.shader.program) in r.calls)
    {
      ProgramCreatedFirst(s, a, l);
      CreatesOnlyItsObjects(s, a, l);
      LinkOnlyAfterBothCompile(s, a, l);
    }
  }

  /** A step hands the vertex source to the vertex shader object it returns
      and, once the vertex shader compiled, the fragment source to the
      fragment shader object. */
  ghost predicate FeedsOwnSourcesStep(step: BuildStep)
  {
    forall s: Shader, a: GlAnswers, l: Handle ::
      && ShaderSource(step(s, a, l).shader.vertShader, s.vertSource) in step(s, a, l).calls
      && (a.vertStatus != 0 ==>
            ShaderSource(step(s, a, l).shader.fragShader, s.fragSource) in step(s, a, l).calls)
  }

  lemma CompileShaderProgramFeedsOwnSources()
    ensures FeedsOwnSourcesStep(CompileShaderProgram)
  {
    forall s: Shader, a: GlAnswers, l: Handle
      ensures var r := CompileShaderProgram(s, a, l);
              && ShaderSource(r.shader.vertShader, s.vertSource) in r.calls
              && (a.vertStatus != 0 ==> ShaderSource(r.shader.fragShader, s.fragSource) in r.calls)
    {
      var r := CompileShaderProgram(s, a, l);
      var opening := Opening(r.shader, a.vertStatus != 0);
      assert r.calls[3] == opening[3];
      if a.vertStatus != 0 {
        assert r.calls[7] == opening[7];
      }
    }
  }

  /** The loop of `compileShaders` from index `i` on. */
  datatype Batch = Batch(ok: bool, shaders: seq<Shader>, calls: seq<GlCall>, last: Handle)

  /** The loop of `compileShaders` from index `i`: each shader is built in
      place, and the loop stops at the first failure, leaving the shaders
      after it untouched. */
  function CompileFrom(step: BuildStep, shaders: seq<Shader>, answers: seq<GlAnswers>,
                       i: nat, n: int, last: Handle): (r: Batch)
    requires IsBuildStep(step)
    requires |answers| == |shaders| && i <= |shaders| && n <= |shaders|
    ensures |r.shaders| == |shaders|
    ensures forall k :: 0 <= k < |shaders| ==> SameText(r.shaders[k], shaders[k])
    ensures forall k :: 0 <= k < |shaders| && !Attempted(answers, i, n, k) ==> r.shaders[k] == shaders[k]
    ensures forall k :: 0 <= k < |shaders| && Attempted(answers, i, n, k) ==>
              last < r.shaders[k].program <= r.last
    ensures last <= r.last
    decreases |shaders| - i
  {
    if n <= i then
      Batch(true, shaders, [], last)
    else
      var c := step(shaders[i], answers[i], last);
      var s1 := shaders[i := c.shader];
      if !c.ok then
        assert FirstFailure(answers, i, n) == i;
        Batch(false, s1, c.calls, c.last)
      else
        assert FirstFailure(answers, i, n) == FirstFailure(answers, i + 1, n);
        var rest := CompileFrom(step, s1, answers, i + 1, n, c.last);
        Batch(rest.ok, rest.shaders, c.calls + rest.calls, rest.last)
  }

  /** The loop reports success exactly when every shader in range builds. */
  lemma {:induction false} BatchSucceedsIffAllBuild(step: BuildStep, shaders: seq<Shader>,
                                                    answers: seq<GlAnswers>, i: nat, n: int, last: Handle)
    requires IsBuildStep(step)
    requires |answers| == |shaders| && i <= |shaders| && n <= |shaders|
    ensures CompileFrom(step, shaders, answers, i, n, last).ok
            <==> forall k :: i <= k < n ==> Succeeds(answers[k])
    decreases |shaders| - i
  {
    if i < n {
      var c := step(shaders[i], answers[i], last);
      if c.ok {
        BatchSucceedsIffAllBuild(step, shaders[i := c.shader], answers, i + 1, n, c.last);
      }
    }
  }

  /** Handles are never reused within a batch: every handle created for a
      shader the loop reached lies below every handle created for a later one.
      A shader before the last one reached has built, so its fragment handle
      was created too. */
  lemma {:induction false} BatchHandlesIncrease(step: BuildStep, shaders: seq<Shader>,
                                                answers: seq<GlAnswers>, i: nat, n: int, last: Handle)
    requires IsBuildStep(step)
    requires |answers| == |shaders| && i <= |shaders| && n <= |shaders|
    ensures var r := CompileFrom(step, shaders, answers, i, n, last);
            forall j, k :: 0 <= j < k < |shaders| && Attempted(answers, i, n, j) && Attempted(answers, i, n, k)
              ==> r.shaders[j].program < r.shaders[j].vertShader < r.shaders[j].fragShader
                  < r.shaders[k].program
    decreases |shaders| - i
  {
    if i < n {
      var c := step(shaders[i], answers[i], last);
      if c.ok {
        AttemptedAfterBuild(answers, i, n);
        BatchHandlesIncrease(step, shaders[i := c.shader], answers, i + 1, n, c.last);
        var rest := CompileFrom(step, shaders[i := c.shader], answers, i + 1, n, c.last);
        assert rest.shaders[i] == c.shader;
      } else {
        AttemptedAtFailure(answers, i, n);
      }
    }
  }

  /** Every shader the loop reached holds a program and a vertex shader
      created during the batch, the program first. */
  lemma {:induction false} BatchHandlesFresh(step: BuildStep, shaders: seq<Shader>,
                                             answers: seq<GlAnswers>, i: nat, n: int, last: Handle)
    requires IsBuildStep(step)
    requires |answers| == |shaders| && i <= |shaders| && n <= |shaders|
    ensures var r := CompileFrom(step, shaders, answers, i, n, last);
            forall k :: 0 <= k < |shaders| && Attempted(answers, i, n, k) ==>
              last < r.shaders[k].program < r.shaders[k].vertShader <= r.last
    decreases |shaders| - i
  {
    if i < n {
      var c := step(shaders[i], answers[i], last);
      var s1 := shaders[i := c.shader];
      if c.ok {
        BatchHandlesFresh(step, s1, answers, i + 1, n, c.last);
        AttemptedAfterBuild(answers, i, n);
        var rest := CompileFrom(step, s1, answers, i + 1, n, c.last);
        assert rest.shaders[i] == c.shader;
      } else {
        AttemptedAtFailure(answers, i, n);
      }
    }
  }

  /** Every shader the loop reached that built also holds a fragment shader
      created during the batch, after its vertex shader. (A shader whose
      vertex compile failed keeps its old fragment handle.) */
  lemma {:induction false} BatchFragmentHandlesFresh(step: BuildStep, shaders: seq<Shader>,
                                                     answers: seq<GlAnswers>, i: nat, n: int,
                                                     last: Handle)
    requires IsBuildStep(step)
    requires |answers| == |shaders| && i <= |shaders| && n <= |shaders|
    ensures var r := CompileFrom(step, shaders, answers, i, n, last);
            forall k :: 0 <= k < |shaders| && Attempted(answers, i, n, k) && Succeeds(answers[k]) ==>
              r.shaders[k].vertShader < r.shaders[k].fragShader <= r.last
    decreases |shaders| - i
  {
    if i < n {
      var c := step(shaders[i], answers[i], last);
      if c.ok {
        var s1 := shaders[i := c.shader];
        BatchFragmentHandlesFresh(step, s1, answers, i + 1, n, c.last);
        AttemptedAfterBuild(answers, i, n);
        var rest := CompileFrom(step, s1, answers, i + 1, n, c.last);
        assert rest.shaders[i] == c.shader;
        assert c.shader.vertShader < c.shader.fragShader <= c.last <= rest.last;
      } else {
        AttemptedAtFailure(answers, i, n);
      }
    }
  }

  /** No GL object is created for a shader the loop did not reach: every
      object created belongs to a shader up to the first failure. */
  lemma {:induction false} BatchCreatesOnlyForReached(step: BuildStep, shaders: seq<Shader>,
                                                      answers: seq<GlAnswers>, i: nat, n: int,
                                                      last: Handle)
    requires IsBuildStep(step)
    requires |answers| == |shaders| && i <= |shaders| && n <= |shaders|
    ensures var r := CompileFrom(step, shaders, answers, i, n, last);
            forall c, h :: c in r.calls && Creates(c, h) ==>
              exists k :: 0 <= k < |shaders| && Attempted(answers, i, n, k) && Owns(r.shaders[k], h)
    decreases |shaders| - i
  {
    if i < n {
      var c := step(shaders[i], answers[i], last);
      var s1 := shaders[i := c.shader];
      if !c.ok {
        AttemptedAtFailure(answers, i, n);
      } else {
        AttemptedAfterBuild(answers, i, n);
        BatchCreatesOnlyForReached(step, s1, answers, i + 1, n, c.last);
        var rest := CompileFrom(step, s1, answers, i + 1, n, c.last);
        assert rest.shaders[i] == c.shader;
      }
    }
  }

  /** Every shader the loop reached had its own vertex source handed to its
      vertex shader object. */
  lemma {:induction false} BatchFeedsVertexSources(step: BuildStep, shaders: seq<Shader>,
                                                   answers: seq<GlAnswers>, i: nat, n: int, last: Handle)
    requires IsBuildStep(step) && FeedsOwnSourcesStep(step)
    requires |answers| == |shaders| && i <= |shaders| && n <= |shaders|
    ensures var r := CompileFrom(step, shaders, answers, i, n, last);
            forall k :: 0 <= k < |shaders| && Attempted(answers, i, n, k) ==>
              ShaderSource(r.shaders[k].vertShader, shaders[k].vertSource) in r.calls
    decreases |shaders| - i
  {
    if i < n {
      var c := step(shaders[i], answers[i], last);
      var s1 := shaders[i := c.shader];
      if c.ok {
        BatchFeedsVertexSources(step, s1, answers, i + 1, n, c.last);
        AttemptedAfterBuild(answers, i, n);
        var rest := CompileFrom(step, s1, answers, i + 1, n, c.last);
        assert rest.shaders[i] == c.shader;
      } else {
        AttemptedAtFailure(answers, i, n);
      }
    }
  }

  /** Every shader the loop reached whose vertex shader compiled had its own
      fragment source handed to its fragment shader object. */
  lemma {:induction false} BatchFeedsFragmentSources(step: BuildStep, shaders: seq<Shader>,
                                                     answers: seq<GlAnswers>, i: nat, n: int, last: Handle)
    requires IsBuildStep(step) && FeedsOwnSourcesStep(step)
    requires |answers| == |shaders| && i <= |shaders| && n <= |shaders|
    ensures var r := CompileFrom(step, shaders, answers, i, n, last);
            forall k :: 0 <= k < |shaders| && Attempted(answers, i, n, k) && answers[k].vertStatus != 0 ==>
              ShaderSource(r.shaders[k].fragShader, shaders[k].fragSource) in r.calls
    decreases |shaders| - i
  {
    if i < n {
      var c := step(shaders[i], answers[i], last);
      var s1 := shaders[i := c.shader];
      assert answers[i].vertStatus != 0 ==> ShaderSource(c.shader.fragShader, shaders[i].fragSource) in c.calls;
      if c.ok {
        BatchFeedsFragmentSources(step, s1, answers, i + 1, n, c.last);
        AttemptedAfterBuild(answers, i, n);
        var rest := CompileFrom(step, s1, answers, i + 1, n, c.last);
        assert rest.shaders[i] == c.shader;
      } else {
        AttemptedAtFailure(answers, i, n);
      }
    }
  }

  /** Every shader of a successful batch has its own program, linked during
      the batch. */
  lemma {:induction false} SuccessfulBatchLinksEveryProgram(step: BuildStep, shaders: seq<Shader>,
                                                            answers: seq<GlAnswers>, i: nat, n: int,
                                                            last: Handle)
    requires IsBuildStep(step)
    requires |answers| == |shaders| && i <= |shaders| && n <= |shaders|
    ensures var r := CompileFrom(step, shaders, answers, i, n, last);
            r.ok ==> forall k :: i <= k < n ==> LinkProgram(r.shaders[k].program) in r.calls
    decreases |shaders| - i
  {
    if i < n {
      var c := step(shaders[i], answers[i], last);
      if c.ok {
        var s1 := shaders[i := c.shader];
        SuccessfulBatchLinksEveryProgram(step, s1, answers, i + 1, n, c.last);
        assert FirstFailure(answers, i, n) == FirstFailure(answers, i + 1, n);
        var rest := CompileFrom(step, s1, answers, i + 1, n, c.last);
        assert rest.shaders[i] == c.shader;
      }
    }
  }

  /** Every shader the loop reached has a program object created during the
      batch, whether or not it went on to build. */
  lemma {:induction false} BatchCreatesReachedPrograms(step: BuildStep, shaders: seq<Shader>,
                                                       answers: seq<GlAnswers>, i: nat, n: int,
                                                       last: Handle)
    requires IsBuildStep(step)
    requires |answers| == |shaders| && i <= |shaders| && n <= |shaders|
    ensures var r := CompileFrom(step, shaders, answers, i, n, last);
            forall k :: 0 <= k < |shaders| && Attempted(answers, i, n, k) ==>
              CreateProgramObject(r.shaders[k].program) in r.calls
    decreases |shaders| - i
  {
    if i < n {
      var c := step(shaders[i], answers[i], last);
      var s1 := shaders[i := c.shader];
      if c.ok {
        BatchCreatesReachedPrograms(step, s1, answers, i + 1, n, c.last);
        AttemptedAfterBuild(answers, i, n);
        var rest := CompileFrom(step, s1, answers, i + 1, n, c.last);
        assert rest.shaders[i] == c.shader;
      } else {
        AttemptedAtFailure(answers, i, n);
      }
    }
  }

  /** Result of `compileShaders`: the new globals, the value returned, the
      shaders after the loop, the GL calls and the last handle handed out. */
  datatype Outcome = Outcome(state: GlslState, ok: bool, shaders: seq<Shader>,
                             calls: seq<GlCall>, last: Handle)

  /** `compileShaders`. The batch size is recorded and the shaders are marked
      not ready before anything else; without GLSL support nothing reaches the
      GL. The return value is the new ready flag. */
  function CompileShaders(st: GlslState, shaders: seq<Shader>, numShaders: int,
                          answers: seq<GlAnswers>, last: Handle): (r: Outcome)
    requires |answers| == |shaders| && numShaders <= |shaders|
    ensures r.state.shaderCount == numShaders
    ensures r.state.supported == st.supported
    ensures r.ok == r.state.ready
    ensures r.ok <==> st.supported && forall k :: 0 <= k < numShaders ==> Succeeds(answers[k])
    ensures !st.supported ==> r.calls == [] && r.shaders == shaders
    ensures |r.shaders| == |shaders|
    ensures forall k :: 0 <= k < |shaders| ==> SameText(r.shaders[k], shaders[k])
    ensures forall k :: 0 <= k < |shaders| && !Attempted(answers, 0, numShaders, k) ==>
              r.shaders[k] == shaders[k]
    ensures forall c, h :: c in r.calls && Creates(c, h) ==>
              exists k :: 0 <= k < |shaders| && Attempted(answers, 0, numShaders, k) && Owns(r.shaders[k], h)
  {
    var counted := GlslState(st.supported, false, numShaders);
    if !st.supported then
      Outcome(counted, false, shaders, [], last)
    else
      CompileShaderProgramIsBuildStep();
      BatchSucceedsIffAllBuild(CompileShaderProgram, shaders, answers, 0, numShaders, last);
      BatchCreatesOnlyForReached(CompileShaderProgram, shaders, answers, 0, numShaders, last);
      var b := CompileFrom(CompileShaderProgram, shaders, answers, 0, numShaders, last);
      Outcome(counted.(ready := b.ok), b.ok, b.shaders, b.calls, b.last)
  }

  // ------------------------------------------------------------ draw, free

  /** `glslShaderDraw`: bind the shader's program, or fixed function when
      `enable` is false; a no-op unless GLSL is supported and ready. */
  function GlslShaderDraw(st: GlslState, shader: Shader, enable: bool): (calls: seq<GlCall>)
    ensures calls == [] <==> !(st.supported && st.ready)
    ensures forall c :: c in calls ==> c == UseProgramObject(if enable then shader.program else 0)
    ensures |calls| <= 1
  {
    if st.supported && st.ready then
      [UseProgramObject(if enable then shader.program else 0)]
    else
      []
  }

  /** `destroyShaderProgram`: delete both shader objects, then the program;
      a no-op unless GLSL is supported and ready. */
  function DestroyShaderProgram(st: GlslState, shader: Shader): (calls: seq<GlCall>)
    ensures calls == [] <==> !(st.supported && st.ready)
    ensures calls != [] ==> |calls| == 3
    ensures forall c :: c in calls ==> c.DeleteObject?
    ensures forall h :: DeleteObject(h) in calls <==>
              st.supported && st.ready
              && (h == shader.vertShader || h == shader.fragShader || h == shader.program)
    ensures calls != [] ==> calls[|calls| - 1] == DeleteObject(shader.program)
  {
    if st.supported && st.ready then
      [DeleteObject(shader.vertShader), DeleteObject(shader.fragShader), DeleteObject(shader.program)]
    else
      []
  }

  /** The three heap strings a `Shader` owns. */
  datatype OwnedString = Name | VertSource | FragSource

  /** One release `freeShaders` performs: `free` of a string of shader
      `index`, or a GL call. */
  datatype Release = Free(index: int, field: OwnedString) | Gl(call: GlCall)

  /** GL calls as releases, in order. */
  function AsReleases(calls: seq<GlCall>): (r: seq<Release>)
    ensures |r| == |calls|
    ensures forall x :: x in r ==> x.Gl? && x.call in calls
    ensures forall c :: c in calls ==> Gl(c) in r
  {
    if |calls| == 0 then [] else [Gl(calls[0])] + AsReleases(calls[1..])
  }

  /** `h` is one of the GL objects held by shaders `lo` up to `hi`. */
  predicate OwnedByRange(shaders: seq<Shader>, lo: nat, hi: int, h: Handle)
    requires hi <= |shaders|
  {
    exists k :: lo <= k < hi && Owns(shaders[k], h)
  }

  /** The three strings of shader `i`, in the order the source frees them. */
  function StringsOf(i: int): (r: seq<Release>)
    ensures forall k, f :: Free(k, f) in r <==> k == i
    ensures forall f :: multiset(r)[Free(i, f)] == 1
    ensures forall x :: x in r ==> x.Free?
    ensures |r| == 3
  {
    var strings := [Free(i, Name), Free(i, VertSource), Free(i, FragSource)];
    assert forall f :: Free(i, f) in strings by {
      forall f ensures Free(i, f) in strings {
        assert Free(i, f) == strings[if f == Name then 0 else if f == VertSource then 1 else 2];
      }
    }
    assert forall f :: multiset(strings)[Free(i, f)] == 1 by {
      forall f ensures multiset(strings)[Free(i, f)] == 1 {
        assert multiset(strings) == multiset{Free(i, Name), Free(i, VertSource), Free(i, FragSource)};
      }
    }
    strings
  }

  /** The loop of `freeShaders` from index `i` up to the recorded batch size. */
  function FreeFrom(st: GlslState, shaders: seq<Shader>, i: nat): seq<Release>
    requires st.shaderCount <= |shaders|
    decreases |shaders| - i
  {
    if st.shaderCount <= i then
      []
    else
      StringsOf(i) + AsReleases(DestroyShaderProgram(st, shaders[i])) + FreeFrom(st, shaders, i + 1)
  }

  /** The loop frees the strings of exactly the shaders from `i` up to the count. */
  lemma {:induction false} FreeFromFreesRange(st: GlslState, shaders: seq<Shader>, i: nat)
    requires st.shaderCount <= |shaders|
    ensures forall k, f :: Free(k, f) in FreeFrom(st, shaders, i) <==> i <= k < st.shaderCount
    decreases |shaders| - i
  {
    if i < st.shaderCount {
      FreeFromFreesRange(st, shaders, i + 1);
      var gl := AsReleases(DestroyShaderProgram(st, shaders[i]));
      var rest := FreeFrom(st, shaders, i + 1);
      assert FreeFrom(st, shaders, i) == StringsOf(i) + gl + rest;
      forall k, f ensures Free(k, f) in FreeFrom(st, shaders, i) <==> i <= k < st.shaderCount {
        assert Free(k, f) !in gl;
      }
    }
  }

  /** The loop frees each string of the shaders from `i` up to the count once. */
  lemma {:induction false} FreeFromFreesOnce(st: GlslState, shaders: seq<Shader>, i: nat)
    requires st.shaderCount <= |shaders|
    ensures forall k, f :: i <= k < st.shaderCount ==> multiset(FreeFrom(st, shaders, i))[Free(k, f)] == 1
    decreases |shaders| - i
  {
    if i < st.shaderCount {
      FreeFromFreesOnce(st, shaders, i + 1);
      FreeFromFreesRange(st, shaders, i + 1);
      var gl := AsReleases(DestroyShaderProgram(st, shaders[i]));
      var rest := FreeFrom(st, shaders, i + 1);
      assert FreeFrom(st, shaders, i) == StringsOf(i) + gl + rest;
      forall k, f | i <= k < st.shaderCount
        ensures multiset(FreeFrom(st, shaders, i))[Free(k, f)] == 1
      {
        assert Free(k, f) !in gl;
        assert k == i ==> Free(k, f) !in rest;
        assert k != i ==> Free(k, f) !in StringsOf(i);
      }
    }
  }

  /** Each shader from `i` up to the count contributes its three frees and,
      when supported and ready, its three deletes, and nothing else. */
  lemma {:induction false} FreeFromLength(st: GlslState, shaders: seq<Shader>, i: nat)
    requires st.shaderCount <= |shaders|
    ensures |FreeFrom(st, shaders, i)|
            == (if st.supported && st.ready then 6 else 3) * (if i < st.shaderCount then st.shaderCount - i else 0)
    decreases |shaders| - i
  {
    if i < st.shaderCount {
      FreeFromLength(st, shaders, i + 1);
      var gl := AsReleases(DestroyShaderProgram(st, shaders[i]));
      assert FreeFrom(st, shaders, i) == StringsOf(i) + gl + FreeFrom(st, shaders, i + 1);
    }
  }

  /** The loop issues GL calls only when supported and ready, only deletes, and
      deletes no object but one held by a shader from `i` up to the count. */
  lemma {:induction false} FreeFromDeletesOnlyOwned(st: GlslState, shaders: seq<Shader>, i: nat)
    requires st.shaderCount <= |shaders|
    ensures forall x :: x in FreeFrom(st, shaders, i) && x.Gl? ==>
              && st.supported && st.ready && x.call.DeleteObject?
              && OwnedByRange(shaders, i, st.shaderCount, x.call.obj)
    decreases |shaders| - i
  {
    if i < st.shaderCount {
      FreeFromDeletesOnlyOwned(st, shaders, i + 1);
      var gl := AsReleases(DestroyShaderProgram(st, shaders[i]));
      var rest := FreeFrom(st, shaders, i + 1);
      assert FreeFrom(st, shaders, i) == StringsOf(i) + gl + rest;
      forall x: Release | x in StringsOf(i) + gl + rest && x.Gl?
        ensures && st.supported && st.ready && x.call.DeleteObject?
                && OwnedByRange(shaders, i, st.shaderCount, x.call.obj)
      {
        if x in gl {
          assert Owns(shaders[i], x.call.obj);
        } else if x in rest {
          var k :| i + 1 <= k < st.shaderCount && Owns(shaders[k], x.call.obj);
        }
      }
    }
  }

  /** When supported and ready, the loop deletes all three objects of every
      shader from `i` up to the count. */
  lemma {:induction false} FreeFromDeletesAll(st: GlslState, shaders: seq<Shader>, i: nat)
    requires st.shaderCount <= |shaders|
    ensures st.supported && st.ready ==>
              forall k :: i <= k < st.shaderCount ==>
                && Gl(DeleteObject(shaders[k].vertShader)) in FreeFrom(st, shaders, i)
                && Gl(DeleteObject(shaders[k].fragShader)) in FreeFrom(st, shaders, i)
                && Gl(DeleteObject(shaders[k].program)) in FreeFrom(st, shaders, i)
    decreases |shaders| - i
  {
    if st.supported && st.ready && i < st.shaderCount {
      FreeFromDeletesAll(st, shaders, i + 1);
      var calls := DestroyShaderProgram(st, shaders[i]);
      var gl := AsReleases(calls);
      var rest := FreeFrom(st, shaders, i + 1);
      assert FreeFrom(st, shaders, i) == StringsOf(i) + gl + rest;
      assert DeleteObject(shaders[i].vertShader) in calls;
      assert DeleteObject(shaders[i].fragShader) in calls;
      assert DeleteObject(shaders[i].program) in calls;
    }
  }

  /** `freeShaders`: for each of the `SHADER_COUNT` shaders of the last
      `compileShaders`, free its three strings and destroy its GL objects. */
  function FreeShaders(st: GlslState, shaders: seq<Shader>): (r: seq<Release>)
    requires st.shaderCount <= |shaders|
    ensures forall k, f :: Free(k, f) in r <==> 0 <= k < st.shaderCount
    ensures forall k, f :: 0 <= k < st.shaderCount ==> multiset(r)[Free(k, f)] == 1
    ensures |r| == (if st.supported && st.ready then 6 else 3) * (if 0 < st.shaderCount then st.shaderCount else 0)
    ensures forall x :: x in r && x.Gl? ==> st.supported && st.ready && x.call.DeleteObject?
    ensures forall x :: x in r && x.Gl? && x.call.DeleteObject? ==>
              OwnedByRange(shaders, 0, st.shaderCount, x.call.obj)
    ensures st.supported && st.ready ==>
              forall k :: 0 <= k < st.shaderCount ==>
                && Gl(DeleteObject(shaders[k].vertShader)) in r
                && Gl(DeleteObject(shaders[k].fragShader)) in r
                && Gl(DeleteObject(shaders[k].program)) in r
  {
    FreeFromFreesRange(st, shaders, 0);
    FreeFromFreesOnce(st, shaders, 0);
    FreeFromLength(st, shaders, 0);
    FreeFromDeletesOnlyOwned(st, shaders, 0);
    FreeFromDeletesAll(st, shaders, 0);
    FreeFrom(st, shaders, 0)
  }

  // ------------------------------------------------------------- scenarios

  /** Before `compileShaders` has succeeded, drawing never reaches the GL:
      `initShaders` always leaves the shaders not ready. */
  lemma DrawIsInertAfterInit(st: GlslState, extensionsResolved: bool, shader: Shader, enable: bool)
    ensures GlslShaderDraw(InitShaders(st, extensionsResolved).state, shader, enable) == []
    ensures GlslShaderDraw(Startup, shader, enable) == []
  {
  }

  /** After a batch that built every shader, drawing shader `k` binds the
      program the batch created and linked for it. */
  lemma ReadyBatchDrawsItsPrograms(st: GlslState, shaders: seq<Shader>, numShaders: int,
                                   answers: seq<GlAnswers>, last: Handle, k: int, enable: bool)
    requires |answers| == |shaders| && numShaders <= |shaders|
    requires st.supported && forall j :: 0 <= j < numShaders ==> Succeeds(answers[j])
    requires 0 <= k < numShaders
    ensures var o := CompileShaders(st, shaders, numShaders, answers, last);
            && GlslShaderDraw(o.state, o.shaders[k], enable)
               == [UseProgramObject(if enable then o.shaders[k].program else 0)]
            && last < o.shaders[k].program
            && LinkProgram(o.shaders[k].program) in o.calls
  {
    CompileShaderProgramIsBuildStep();
    SuccessfulBatchLinksEveryProgram(CompileShaderProgram, shaders, answers, 0, numShaders, last);
    AllBuildReachesEnd(answers, 0, numShaders);
    assert Attempted(answers, 0, numShaders, k);
  }

  /** Freeing a batch that built every shader releases all of it: the three
      strings and the three GL objects of each shader, and the programs
      deleted are the ones the batch created. */
  lemma ReadyBatchFreesEverything(st: GlslState, shaders: seq<Shader>, numShaders: int,
                                  answers: seq<GlAnswers>, last: Handle)
    requires |answers| == |shaders| && numShaders <= |shaders|
    requires st.supported && forall j :: 0 <= j < numShaders ==> Succeeds(answers[j])
    ensures var o := CompileShaders(st, shaders, numShaders, answers, last);
            var rel := FreeShaders(o.state, o.shaders);
            forall k :: 0 <= k < numShaders ==>
              && Free(k, Name) in rel && Free(k, VertSource) in rel && Free(k, FragSource) in rel
              && Gl(DeleteObject(o.shaders[k].vertShader)) in rel
              && Gl(DeleteObject(o.shaders[k].fragShader)) in rel
              && Gl(DeleteObject(o.shaders[k].program)) in rel
              && CreateProgramObject(o.shaders[k].program) in o.calls
  {
    CompileShaderProgramIsBuildStep();
    BatchCreatesReachedPrograms(CompileShaderProgram, shaders, answers, 0, numShaders, last);
    AllBuildReachesEnd(answers, 0, numShaders);
    var o := CompileShaders(st, shaders, numShaders, answers, last);
    assert o.state.supported && o.state.ready && o.state.shaderCount == numShaders;
    forall k | 0 <= k < numShaders
      ensures CreateProgramObject(o.shaders[k].program) in o.calls
    {
      assert Attempted(answers, 0, numShaders, k);
    }
  }

  /** Freeing after a failed batch frees every string of the batch but issues
      no GL call at all, although the GL objects of every shader the loop
      reached were created: they are never deleted. */
  lemma FailedBatchLeaksGlObjects(st: GlslState, shaders: seq<Shader>, numShaders: int,
                                  answers: seq<GlAnswers>, last: Handle, failed: int)
    requires |answers| == |shaders| && numShaders <= |shaders|
    requires st.supported && 0 <= failed < numShaders && !Succeeds(answers[failed])
    ensures var o := CompileShaders(st, shaders, numShaders, answers, last);
            var rel := FreeShaders(o.state, o.shaders);
            && !o.ok
            && (forall k :: 0 <= k < numShaders ==>
                  Free(k, Name) in rel && Free(k, VertSource) in rel && Free(k, FragSource) in rel)
            && (forall x :: x in rel ==> x.Free?)
            && CreateProgramObject(o.shaders[0].program) in o.calls
  {
    CompileShaderProgramIsBuildStep();
    BatchCreatesReachedPrograms(CompileShaderProgram, shaders, answers, 0, numShaders, last);
  }
}

=== FILE: glsl_shader.dfy ===
/**
 The shader compile/link pipeline of glsl_shader.c as a state machine over the
 two capability flags and the batch count. The GL is an oracle: for each
 shader it answers the two compile statuses, the link status, the location of
 the `tex0` uniform and whether the error flag is raised at the end. Handles
 are handed out by a counter, so every object the GL creates is new. Each
 operation returns the GL calls it issues, in order.
 */
module GlslShader {
  import opened GlslTypes

  /** The conventional sampler uniform bound to texture unit 0. */
  const Tex0: string := "tex0"

  /** What the GL reports while one shader program is built. */
  datatype GlAnswers = GlAnswers(
    vertStatus: int,     // compile status of the vertex shader object
    fragStatus: int,     // compile status of the fragment shader object
    linkStatus: int,     // link status of the program object
    tex0Location: int,   // what glGetUniformLocation answers for "tex0"
    errorRaised: bool)   // glGetError() is not GL_NO_ERROR after the uniform binding

  /** Every step the source checks went through. */
  predicate Succeeds(a: GlAnswers)
  {
    a.vertStatus != 0 && a.fragStatus != 0 && a.linkStatus != 0 && !a.errorRaised
  }

  /** A call that feeds or queries object `h` and creates, attaches, binds or
      deletes nothing. */
  predicate ActsOnlyOn(c: GlCall, h: Handle)
  {
    match c
    case ShaderSource(s, _) => s == h
    case CompileShader(s) => s == h
    case GetObjectParameter(o, _) => o == h
    case GetInfoLog(o) => o == h
    case _ => false
  }

  /** The call changes what a program is made of or what it is fed: attaches,
      links, binds or sets a uniform. */
  predicate TouchesProgram(c: GlCall)
  {
    c.AttachObject? || c.LinkProgram? || c.UseProgramObject? || c.Uniform1i?
  }

  /** No source is handed to any object but the vertex source to the vertex
      shader object and, when the fragment stage is reached, the fragment
      source to the fragment shader object. */
  predicate FeedsOnlyOwnSources(s: Shader, calls: seq<GlCall>, fragReached: bool)
  {
    forall c :: c in calls && c.ShaderSource? ==>
      c == ShaderSource(s.vertShader, s.vertSource)
      || (fragReached && c == ShaderSource(s.fragShader, s.fragSource))
  }

  /** Outcome of one checked step and the calls it issued. */
  datatype Checked = Checked(ok: bool, calls: seq<GlCall>)

  /** `checkGLSuccessStatus`: a zero status is a failure, and only then is the
      object's info log fetched. */
  function CheckGLSuccessStatus(handle: Handle, key: StatusKey, status: int): (r: Checked)
    ensures r.ok <==> status != 0
    ensures |r.calls| >= 1 && r.calls[0] == GetObjectParameter(handle, key)
    ensures GetInfoLog(handle) in r.calls <==> !r.ok
    ensures forall c :: c in r.calls ==> ActsOnlyOn(c, handle)
  {
    Checked(status != 0,
            [GetObjectParameter(handle, key)] + (if status == 0 then [GetInfoLog(handle)] else []))
  }

  /** `compileShader`: the source is handed over and compiled before the
      compile status is queried; nothing but that shader object is touched. */
  function CompileShaderObject(compiled: Handle, source: string, status: int): (r: Checked)
    ensures r.ok <==> status != 0
    ensures |r.calls| >= 3
    ensures r.calls[..3] == [ShaderSource(compiled, source), CompileShader(compiled),
                             GetObjectParameter(compiled, CompileStatus)]
    ensures GetInfoLog(compiled) in r.calls <==> !r.ok
    ensures forall c :: c in r.calls ==> ActsOnlyOn(c, compiled)
  {
    var check := CheckGLSuccessStatus(compiled, CompileStatus, status);
    Checked(check.ok, [ShaderSource(compiled, source), CompileShader(compiled)] + check.calls)
  }

  /** `linkCompiledShadersWithProgram`: both shader objects are attached before
      the link, and the link status decides. Beyond the attaches and the link,
      only the program object is queried. */
  function LinkCompiledShadersWithProgram(shader: Shader, status: int): (r: Checked)
    ensures r.ok <==> status != 0
    ensures |r.calls| >= 4
    ensures r.calls[..4] == [AttachObject(shader.program, shader.vertShader),
                             AttachObject(shader.program, shader.fragShader),
                             LinkProgram(shader.program),
                             GetObjectParameter(shader.program, LinkStatus)]
    ensures GetInfoLog(shader.program) in r.calls <==> !r.ok
    ensures forall c :: c in r.calls ==>
              c.AttachObject? || c.LinkProgram? || ActsOnlyOn(c, shader.program)
    ensures forall c :: c in r.calls[4..] ==> ActsOnlyOn(c, shader.program)
  {
    var check := CheckGLSuccessStatus(shader.program, LinkStatus, status);
    Checked(check.ok,
            [AttachObject(shader.program, shader.vertShader),
             AttachObject(shader.program, shader.fragShader),
             LinkProgram(shader.program)] + check.calls)
  }

  /** Binding `tex0` to unit 0 when the program declares it, with the program
      bound only for the duration. */
  function BindTex0(program: Handle, location: int): (calls: seq<GlCall>)
    ensures |calls| >= 3 && calls[0] == UseProgramObject(program)
    ensures calls[|calls| - 1] == UseProgramObject(0)
    ensures Uniform1i(location, 0) in calls <==> location >= 0
    ensures forall c :: c in calls && c.Uniform1i? ==> c == Uniform1i(location, 0)
    ensures forall c :: c in calls ==> c.UseProgramObject? || c.GetUniformLocation? || c.Uniform1i?
  {
    [UseProgramObject(program), GetUniformLocation(program, Tex0)]
    + (if location >= 0 then [Uniform1i(location, 0)] else [])
    + [UseProgramObject(0)]
  }

  /** The calls `compileShaderProgram` opens with: clear the error flag,
      create the program, create the vertex shader and hand it the vertex
      source; once the vertex shader compiled, also create the fragment
      shader and hand it the fragment source. */
  function Opening(s: Shader, fragReached: bool): seq<GlCall>
  {
    [GetError, CreateProgramObject(s.program),
     CreateShaderObject(Vertex, s.vertShader), ShaderSource(s.vertShader, s.vertSource)]
    + (if fragReached then
         [CompileShader(s.vertShader), GetObjectParameter(s.vertShader, CompileStatus),
          CreateShaderObject(Fragment, s.fragShader), ShaderSource(s.fragShader, s.fragSource)]
       else [])
  }

  /** A prefix stays a prefix when the sequence is extended. */
  lemma PrefixOfExtension<T>(a: seq<T>, b: seq<T>, c: seq<T>)
    requires a <= b
    ensures a <= b + c
  {
    assert (b + c)[..|b|] == b;
  }

  /** The second half of `compileShaderProgram`, once both shaders compiled:
      link, bind `tex0` when declared, then read the error flag. No object is
      created and no source is handed over. */
  function LinkAndBind(shader: Shader, ans: GlAnswers): (r: Checked)
    ensures r.ok <==> ans.linkStatus != 0 && !ans.errorRaised
    ensures [AttachObject(shader.program, shader.vertShader),
             AttachObject(shader.program, shader.fragShader),
             LinkProgram(shader.program)] <= r.calls
    ensures forall c :: c in r.calls ==>
              !c.CreateProgramObject? && !c.CreateShaderObject? && !c.ShaderSource?
    ensures Uniform1i(ans.tex0Location, 0) in r.calls <==> ans.linkStatus != 0 && ans.tex0Location >= 0
    ensures forall c :: c in r.calls && c.Uniform1i? ==> c == Uniform1i(ans.tex0Location, 0)
    ensures ans.linkStatus != 0 ==> r.calls[|r.calls| - 1] == GetError
  {
    var lc := LinkCompiledShadersWithProgram(shader, ans.linkStatus);
    if !lc.ok then
      lc
    else
      var bind := BindTex0(shader.program, ans.tex0Location);
      Checked(!ans.errorRaised, lc.calls + bind + [GetError])
  }

  /** One shader after `compileShaderProgram`, the calls made, and the last
      handle the GL has handed out. */
  datatype Compiled = Compiled(ok: bool, shader: Shader, calls: seq<GlCall>, last: Handle)

  /** The exact trace of one stage: create, hand over the source, compile,
      query, and the log only on failure. */
  lemma StageTrace(stage: Stage, h: Handle, source: string, status: int)
    ensures CreateAndCompile(stage, h, source, status).calls
            == [CreateShaderObject(stage, h), ShaderSource(h, source), CompileShader(h),
                GetObjectParameter(h, CompileStatus)]
               + (if status == 0 then [GetInfoLog(h)] else [])
  {
  }

  /** Create one shader object of `stage` and compile `source` into it. */
  function CreateAndCompile(stage: Stage, h: Handle, source: string, status: int): (r: Checked)
    ensures r.ok <==> status != 0
    ensures |r.calls| >= 1 && r.calls[0] == CreateShaderObject(stage, h)
    ensures [CreateShaderObject(stage, h), ShaderSource(h, source), CompileShader(h),
             GetObjectParameter(h, CompileStatus)] <= r.calls
    ensures forall c :: c in r.calls ==> !TouchesProgram(c)
    ensures forall c :: c in r.calls && c.CreateShaderObject? ==> c == CreateShaderObject(stage, h)
  {
    var cc := CompileShaderObject(h, source, status);
    assert forall c :: c in cc.calls ==> ActsOnlyOn(c, h);
    Checked(cc.ok, [CreateShaderObject(stage, h)] + cc.calls)
  }

  /** The first half of `compileShaderProgram`: clear the error flag, create the
      program object, then create and compile the vertex shader and, only if
      that compiled, the fragment shader. Nothing is attached, linked or bound. */
  function CompileStages(shader: Shader, ans: GlAnswers, last: Handle): (r: Compiled)
    ensures r.ok <==> ans.vertStatus != 0 && ans.fragStatus != 0
    ensures SameText(r.shader, shader)
    ensures last < r.shader.program < r.shader.vertShader <= r.last
    ensures |r.calls| >= 2 && r.calls[..2] == [GetError, CreateProgramObject(r.shader.program)]
    ensures ans.vertStatus != 0 ==> r.shader.vertShader < r.shader.fragShader <= r.last
    ensures ans.vertStatus == 0 ==> r.shader.fragShader == shader.fragShader
    ensures Opening(r.shader, ans.vertStatus != 0) <= r.calls
    ensures forall c :: c in r.calls ==> !TouchesProgram(c)
    ensures forall c, h :: c in r.calls && Creates(c, h) ==> Owns(r.shader, h)
  {
    var program := last + 1;
    var vert := last + 2;
    var s1 := shader.(program := program, vertShader := vert);
    var prefix := [GetError, CreateProgramObject(program)];
    StageTrace(Vertex, vert, shader.vertSource, ans.vertStatus);
    var vc := CreateAndCompile(Vertex, vert, shader.vertSource, ans.vertStatus);
    if !vc.ok then
      Compiled(false, s1, prefix + vc.calls, vert)
    else
      var frag := last + 3;
      StageTrace(Fragment, frag, shader.fragSource, ans.fragStatus);
      var fc := CreateAndCompile(Fragment, frag, shader.fragSource, ans.fragStatus);
      Compiled(fc.ok, s1.(fragShader := frag), prefix + vc.calls + fc.calls, frag)
  }

  /** `compileShaderProgram`. Success needs both compiles, the link and a clear
      error flag; a missing `tex0` never fails it. */
  function CompileShaderProgram(shader: Shader, ans: GlAnswers, last: Handle): (r: Compiled)
    ensures r.ok <==> Succeeds(ans)
    ensures SameText(r.shader, shader)
    ensures last < r.shader.program < r.shader.vertShader <= r.last
    ensures |r.calls| >= 2 && r.calls[..2] == [GetError, CreateProgramObject(r.shader.program)]
    ensures ans.vertStatus != 0 ==> r.shader.vertShader < r.shader.fragShader <= r.last
    ensures ans.vertStatus == 0 ==> r.shader.fragShader == shader.fragShader
    ensures Opening(r.shader, ans.vertStatus != 0) <= r.calls
  {
    var stages := CompileStages(shader, ans, last);
    if !stages.ok then
      stages
    else
      var tail := LinkAndBind(stages.shader, ans);
      PrefixOfExtension(Opening(stages.shader, ans.vertStatus != 0), stages.calls, tail.calls);
      stages.(ok := tail.ok, calls := stages.calls + tail.calls)
  }

  /** Within the compile stages a fragment shader object is created exactly
      when the vertex shader compiled. */
  lemma StagesCreateFragmentAfterVertex(shader: Shader, ans: GlAnswers, last: Handle)
    ensures var r := CompileStages(shader, ans, last);
            && (ans.vertStatus == 0 ==>
                  forall c :: c in r.calls && c.CreateShaderObject? ==> c.stage == Vertex)
            && (ans.vertStatus != 0 ==> CreateShaderObject(Fragment, r.shader.fragShader) in r.calls)
  {
    var vc := CreateAndCompile(Vertex, last + 2, shader.vertSource, ans.vertStatus);
    if ans.vertStatus != 0 {
      var fc := CreateAndCompile(Fragment, last + 3, shader.fragSource, ans.fragStatus);
      assert fc.calls[0] in fc.calls;
    }
  }

  /** The fragment shader object is created exactly when the vertex shader compiled. */
  lemma FragmentCreatedOnlyAfterVertexCompiles(shader: Shader, ans: GlAnswers, last: Handle)
    ensures var r := CompileShaderProgram(shader, ans, last);
            && (ans.vertStatus == 0 ==>
                  forall c :: c in r.calls && c.CreateShaderObject? ==> c.stage == Vertex)
            && (ans.vertStatus != 0 ==> CreateShaderObject(Fragment, r.shader.fragShader) in r.calls)
  {
    StagesCreateFragmentAfterVertex(shader, ans, last);
  }

  /** The shaders are attached and the program linked exactly when both
      shaders compiled. */
  lemma LinkOnlyAfterBothCompile(shader: Shader, ans: GlAnswers, last: Handle)
    ensures var r := CompileShaderProgram(shader, ans, last);
            && (LinkProgram(r.shader.program) in r.calls <==> ans.vertStatus != 0 && ans.fragStatus != 0)
            && (forall c :: c in r.calls && (c.AttachObject? || c.LinkProgram?) ==>
                  ans.vertStatus != 0 && ans.fragStatus != 0)
  {
    var stages := CompileStages(shader, ans, last);
    if stages.ok {
      var tail := LinkAndBind(stages.shader, ans);
      assert tail.calls[2] == LinkProgram(stages.shader.program);
    }
  }

  /** `tex0` is set, and only ever to unit 0, exactly when the program linked
      and declares the uniform. */
  lemma Tex0BoundOnlyWhenDeclared(shader: Shader, ans: GlAnswers, last: Handle)
    ensures var r := CompileShaderProgram(shader, ans, last);
            && (Uniform1i(ans.tex0Location, 0) in r.calls
                <==> ans.vertStatus != 0 && ans.fragStatus != 0 && ans.linkStatus != 0
                     && ans.tex0Location >= 0)
            && (forall c :: c in r.calls && c.Uniform1i? ==> c == Uniform1i(ans.tex0Location, 0))
  {
    var stages := CompileStages(shader, ans, last);
    if stages.ok {
      var tail := LinkAndBind(stages.shader, ans);
    }
  }

  /** The only objects created are the three the shader ends up holding: the
      link and the `tex0` binding create nothing. */
  lemma CreatesOnlyItsObjects(shader: Shader, ans: GlAnswers, last: Handle)
    ensures var r := CompileShaderProgram(shader, ans, last);
            forall c, h :: c in r.calls && Creates(c, h) ==> Owns(r.shader, h)
  {
    var stages := CompileStages(shader, ans, last);
    if stages.ok {
      var tail := LinkAndBind(stages.shader, ans);
      assert forall c, h :: c in tail.calls ==> !Creates(c, h);
    }
  }

  /** A created shader object is handed its own source and no other. */
  lemma StageFeedsOnlyItsSource(stage: Stage, h: Handle, source: string, status: int)
    ensures forall c :: c in CreateAndCompile(stage, h, source, status).calls && c.ShaderSource? ==>
              c == ShaderSource(h, source)
  {
    StageTrace(stage, h, source, status);
  }

  /** The compile stages hand each object only its own stage's source. */
  lemma StagesFeedOnlyOwnSources(shader: Shader, ans: GlAnswers, last: Handle)
    ensures var r := CompileStages(shader, ans, last);
            FeedsOnlyOwnSources(r.shader, r.calls, ans.vertStatus != 0)
  {
    StageFeedsOnlyItsSource(Vertex, last + 2, shader.vertSource, ans.vertStatus);
    StageFeedsOnlyItsSource(Fragment, last + 3, shader.fragSource, ans.fragStatus);
  }

  /** The vertex source goes to the vertex shader object, the fragment source
      to the fragment shader object once the vertex shader compiled, and no
      other source is handed to any object. */
  lemma CompilesOwnSources(shader: Shader, ans: GlAnswers, last: Handle)
    ensures var r := CompileShaderProgram(shader, ans, last);
            FeedsOnlyOwnSources(r.shader, r.calls, ans.vertStatus != 0)
  {
    StagesFeedOnlyOwnSources(shader, ans, last);
    var stages := CompileStages(shader, ans, last);
    if stages.ok {
      var tail := LinkAndBind(stages.shader, ans);
    }
  }

  /** The program object is created by every call, before anything can fail. */
  lemma ProgramCreatedFirst(shader: Shader, ans: GlAnswers, last: Handle)
    ensures var r := CompileShaderProgram(shader, ans, last);
            CreateProgramObject(r.shader.program) in r.calls
  {
    var r := CompileShaderProgram(shader, ans, last);
    assert r.calls[1] in r.calls;
  }
}

=== FILE: glsl_types.dfy ===
/**
 The entities the shader library shares between loader and compiler: the
 `Shader` record of glsl_shader.h and the alphabet of ARB shader-object calls
 the pipeline issues, so that each operation can be described by the trace of
 GL calls it makes.
 */
module GlslTypes {

  /** An opaque `GLhandleARB`; 0 names no object (binding it selects fixed function). */
  type Handle = nat

  datatype Stage = Vertex | Fragment

  /** The `status_key` argument of `checkGLSuccessStatus`. */
  datatype StatusKey = CompileStatus | LinkStatus

  /** One call into the GL, with the arguments the pipeline passes. */
  datatype GlCall =
    | GetError
    | CreateProgramObject(program: Handle)
    | CreateShaderObject(stage: Stage, shader: Handle)
    | ShaderSource(shader: Handle, source: string)
    | CompileShader(shader: Handle)
    | GetObjectParameter(obj: Handle, key: StatusKey)
    | GetInfoLog(obj: Handle)
    | AttachObject(program: Handle, shader: Handle)
    | LinkProgram(program: Handle)
    | UseProgramObject(program: Handle)
    | GetUniformLocation(program: Handle, uniform: string)
    | Uniform1i(location: int, value: int)
    | DeleteObject(obj: Handle)

  /** The call creates the GL object `h`. */
  predicate Creates(c: GlCall, h: Handle)
  {
    match c
    case CreateProgramObject(p) => p == h
    case CreateShaderObject(_, s) => s == h
    case _ => false
  }

  /** One drawable effect: three GL handles and the three owned strings.
      Handles are 0 until the compiler fills them in. */
  datatype Shader = Shader(
    program: Handle,
    vertShader: Handle,
    fragShader: Handle,
    name: string,
    vertSource: string,
    fragSource: string)

  /** `h` is one of the three GL objects the shader holds. */
  predicate Owns(s: Shader, h: Handle)
  {
    h == s.program || h == s.vertShader || h == s.fragShader
  }

  /** Same name and sources: the compiler only ever changes the handles. */
  predicate SameText(a: Shader, b: Shader)
  {
    a.name == b.name && a.vertSource == b.vertSource && a.fragSource == b.fragSource
  }
}

=== FILE: power_of_two.dfy ===
/**
 Texture sizing of sdl_gl.c: `nearestPowerOfTwo`, which doubles a C `int`
 starting at 1 until it reaches its input, and the choice in `loadTextureBMP`
 between the surface's own size and that size rounded up to powers of two
 (required by OpenGL 1.x and on request).
 */
module PowerOfTwo {

  /** 2^30, the largest input for which `value <<= 1` never leaves the range
      of a 32-bit `int`: larger inputs would shift 2^30 into the sign bit. */
  const MaxInput: int := 0x4000_0000

  /** 1, 2, 4, 8, ... */
  predicate IsPowerOfTwo(n: int)
    decreases if n < 0 then 0 else n
  {
    n == 1 || (n > 1 && n % 2 == 0 && IsPowerOfTwo(n / 2))
  }

  /** Doubling a power of two gives a power of two. */
  lemma DoubleIsPowerOfTwo(p: int)
    requires IsPowerOfTwo(p)
    ensures IsPowerOfTwo(2 * p)
  {
  }

  /** Powers of two are closed under multiplication. */
  lemma {:induction false} ProductOfPowers(p: int, q: int)
    requires IsPowerOfTwo(p) && IsPowerOfTwo(q)
    ensures IsPowerOfTwo(p * q)
    decreases q
  {
    if q != 1 {
      ProductOfPowers(p, q / 2);
      DoubleIsPowerOfTwo(p * (q / 2));
      assert 2 * (p * (q / 2)) == p * q;
    }
  }

  lemma MaxInputIsPowerOfTwo()
    ensures IsPowerOfTwo(MaxInput)
  {
    assert IsPowerOfTwo(32) by {
      DoubleIsPowerOfTwo(1);
      DoubleIsPowerOfTwo(2);
      DoubleIsPowerOfTwo(4);
      DoubleIsPowerOfTwo(8);
      DoubleIsPowerOfTwo(16);
    }
    ProductOfPowers(32, 32);
    ProductOfPowers(1024, 1024);
    ProductOfPowers(0x10_0000, 1024);
  }

  /** A smaller power of two is at most half of a larger one. */
  lemma {:induction false} PowersDoubleBelow(p: int, q: int)
    requires IsPowerOfTwo(p) && IsPowerOfTwo(q) && p < q
    ensures 2 * p <= q
    decreases q
  {
    if p != 1 {
      PowersDoubleBelow(p / 2, q / 2);
    }
  }

  /** The loop `while (value < input) value <<= 1;` continued from `value`. */
  function GrowFrom(value: int, input: int): (r: int)
    requires IsPowerOfTwo(value) && value <= MaxInput && input <= MaxInput
    requires value == 1 || value / 2 < input
    ensures IsPowerOfTwo(r) && value <= r <= MaxInput
    ensures r >= input
    ensures r == 1 || r / 2 < input
    decreases MaxInput - value
  {
    if value < input then
      MaxInputIsPowerOfTwo();
      PowersDoubleBelow(value, MaxInput);
      DoubleIsPowerOfTwo(value);
      GrowFrom(2 * value, input)
    else
      value
  }

  /** `nearestPowerOfTwo`: the smallest power of two that is at least `input`;
      every input up to 1, zero and negatives included, gives 1. */
  function NearestPowerOfTwo(input: int): (r: int)
    requires input <= MaxInput
    ensures IsPowerOfTwo(r) && r >= input && r <= MaxInput
    ensures r == 1 || r / 2 < input
    ensures input <= 1 ==> r == 1
  {
    GrowFrom(1, input)
  }

  /** No power of two at least `input` is smaller than the result. */
  lemma Minimality(input: int, p: int)
    requires input <= MaxInput
    requires IsPowerOfTwo(p) && p >= input
    ensures NearestPowerOfTwo(input) <= p
  {
    var r := NearestPowerOfTwo(input);
    if r != 1 {
      PowersDoubleBelow(r / 2, p);
    }
  }

  /** Powers of two are fixed points, so rounding twice is rounding once. */
  lemma Idempotence(input: int)
    requires input <= MaxInput
    ensures NearestPowerOfTwo(NearestPowerOfTwo(input)) == NearestPowerOfTwo(input)
  {
    var r := NearestPowerOfTwo(input);
    Minimality(r, r);
  }

  /** A larger input never rounds to a smaller power. */
  lemma Monotonicity(a: int, b: int)
    requires a <= b <= MaxInput
    ensures NearestPowerOfTwo(a) <= NearestPowerOfTwo(b)
  {
    Minimality(a, NearestPowerOfTwo(b));
  }

  /** The GL version string `SDL_GL_VERSION` names OpenGL 1.x: its first
      character is '1' (an empty string has the NUL there). */
  predicate LegacyGl(glVersion: string)
  {
    |glVersion| > 0 && glVersion[0] == '1'
  }

  /** Width and height of the GL-compatible surface. */
  datatype Size = Size(w: int, h: int)

  /** The size chosen in `loadTextureBMP` for a `w` x `h` bitmap: each side is
      rounded up to a power of two when `forceNrSqr` is set or the GL is 1.x,
      and kept as it is otherwise. Only the rounding branch shifts, so only it
      bounds the sides. */
  function TextureSize(forceNrSqr: bool, glVersion: string, w: int, h: int): (s: Size)
    requires forceNrSqr || LegacyGl(glVersion) ==> w <= MaxInput && h <= MaxInput
    ensures forceNrSqr || LegacyGl(glVersion) ==>
              && IsPowerOfTwo(s.w) && s.w >= w && (s.w == 1 || s.w / 2 < w)
              && IsPowerOfTwo(s.h) && s.h >= h && (s.h == 1 || s.h / 2 < h)
    ensures !(forceNrSqr || LegacyGl(glVersion)) ==> s == Size(w, h)
  {
    if forceNrSqr || LegacyGl(glVersion) then
      Size(NearestPowerOfTwo(w), NearestPowerOfTwo(h))
    else
      Size(w, h)
  }

  /** Rounding never shrinks a side, so the original bitmap always fits in the
      surface it is copied into; a bitmap whose sides are already powers of two
      keeps its size on every GL. */
  lemma TextureFitsBitmap(forceNrSqr: bool, glVersion: string, w: int, h: int)
    requires forceNrSqr || LegacyGl(glVersion) ==> w <= MaxInput && h <= MaxInput
    ensures var s := TextureSize(forceNrSqr, glVersion, w, h);
            s.w >= w && s.h >= h
            && (IsPowerOfTwo(w) && IsPowerOfTwo(h) ==> s == Size(w, h))
  {
    if (forceNrSqr || LegacyGl(glVersion)) && IsPowerOfTwo(w) && IsPowerOfTwo(h) {
      Minimality(w, w);
      Minimality(h, h);
    }
  }
}

=== FILE: section_reader.dfy ===
/**
 The tagged-section extractor of glsl_shader.c (`readSectionFromFile`) and the
 single-file loader built on it (`loadGLSLFile`). The open file is the
 sequence of reads `fgets` returns on it; a tag matches only a read equal to
 it as a whole, trailing newline included.
 */
module SectionReader {
  import opened Fgets
  import opened GlslTypes

  /** Size in bytes of the buffer the section text is accumulated in, NUL
      included; each `char` of a section counts as one byte. */
  const MaxSourceSize: nat := 100000

  const VertexStartTag: string := "/* vertex shader start */\n"
  const VertexEndTag: string := "/* vertex shader end */\n"
  const FragmentStartTag: string := "/* fragment shader start */\n"
  const FragmentEndTag: string := "/* fragment shader end */\n"

  /** Index of the first read equal to `tag`, or |rs| when there is none. */
  function IndexOf<T(==)>(rs: seq<T>, tag: T): (i: nat)
    ensures i <= |rs|
    ensures i < |rs| ==> rs[i] == tag
    ensures forall j :: 0 <= j < i ==> rs[j] != tag
  {
    if rs == [] then 0
    else if rs[0] == tag then 0
    else 1 + IndexOf(rs[1..], tag)
  }

  /** The text collected by one call and the reads still unread after it. */
  datatype Section = Section(text: string, rest: seq<string>)

  /** First loop: consume reads up to and including the first one equal to `tag`. */
  function SkipPastTag<T(==)>(rs: seq<T>, tag: T): (rest: seq<T>)
    ensures var i := IndexOf(rs, tag);
            rest == if i < |rs| then rs[i + 1..] else []
  {
    if rs == [] then []
    else if rs[0] == tag then rs[1..]
    else SkipPastTag(rs[1..], tag)
  }

  /** Second loop: append reads until one equals `tag`; that one is consumed, not kept. */
  function TakeUntilTag(rs: seq<string>, tag: string): (r: Section)
    ensures var j := IndexOf(rs, tag);
            && r.text == Flatten(rs[..j])
            && r.rest == if j < |rs| then rs[j + 1..] else []
  {
    if rs == [] then Section("", [])
    else if rs[0] == tag then Section("", rs[1..])
    else
      var r := TakeUntilTag(rs[1..], tag);
      assert rs[..IndexOf(rs, tag)][1..] == rs[1..][..IndexOf(rs[1..], tag)];
      Section(rs[0] + r.text, r.rest)
  }

  /** `IndexOf` reaches the end exactly when no read equals the tag. */
  lemma IndexOfFindsMember<T>(rs: seq<T>, tag: T)
    ensures IndexOf(rs, tag) < |rs| <==> tag in rs
  {
  }

  /** `readSectionFromFile`: the reads strictly after the first `startTag` read
      and strictly before the next `endTag` read, concatenated; the stream is
      left just past the end tag, or at end of file when a tag is missing. */
  function ReadSectionFromFile(rs: seq<string>, startTag: string, endTag: string): (r: Section)
    ensures var i := IndexOf(rs, startTag);
            i == |rs| ==> r.text == "" && r.rest == []
    ensures var i := IndexOf(rs, startTag);
            i < |rs| ==>
              var tail := rs[i + 1..];
              var j := IndexOf(tail, endTag);
              && r.text == Flatten(tail[..j])
              && r.rest == if j < |tail| then tail[j + 1..] else []
  {
    TakeUntilTag(SkipPastTag(rs, startTag), endTag)
  }

  /** The scan only moves forward: what it leaves is a suffix of the stream that
      starts after the start tag it found. */
  lemma ScanLeavesSuffix(rs: seq<string>, startTag: string, endTag: string)
    ensures var r := ReadSectionFromFile(rs, startTag, endTag);
            && |r.rest| <= |rs|
            && r.rest == rs[|rs| - |r.rest|..]
            && (IndexOf(rs, startTag) < |rs| ==> |r.rest| < |rs| - IndexOf(rs, startTag))
  {
    var i := IndexOf(rs, startTag);
    if i < |rs| {
      var tail := rs[i + 1..];
      var j := IndexOf(tail, endTag);
      if j < |tail| {
        assert tail[j + 1..] == rs[i + 1 + j + 1..];
      }
    }
  }

  /** Every read of `rs` is a C string. */
  predicate AllNulFree(rs: seq<string>)
  {
    forall k :: 0 <= k < |rs| ==> NulFree(rs[k])
  }

  lemma {:induction false} FlattenNulFree(rs: seq<string>)
    ensures NulFree(Flatten(rs)) <==> AllNulFree(rs)
  {
    if rs != [] {
      FlattenNulFree(rs[1..]);
      var f := Flatten(rs[1..]);
      var all := Flatten(rs);
      assert all == rs[0] + f;
      if NulFree(all) {
        assert forall k :: 0 <= k < |rs[0]| ==> rs[0][k] == all[k];
        assert forall k :: 0 <= k < |f| ==> f[k] == all[|rs[0]| + k];
        assert forall k :: 1 <= k < |rs| ==> rs[k] == rs[1..][k - 1];
      }
      if AllNulFree(rs) {
        assert NulFree(rs[0]);
        assert forall k :: 0 <= k < |rs| - 1 ==> rs[1..][k] == rs[k + 1];
      }
    }
  }

  lemma SliceNulFree(rs: seq<string>, lo: nat, hi: nat)
    requires AllNulFree(rs) && lo <= hi <= |rs|
    ensures AllNulFree(rs[lo..hi])
  {
    assert forall k :: 0 <= k < hi - lo ==> rs[lo..hi][k] == rs[lo + k];
  }

  /** A section taken from a NUL-free stream is a proper C string. */
  lemma SectionNulFree(rs: seq<string>, startTag: string, endTag: string)
    requires AllNulFree(rs)
    ensures NulFree(ReadSectionFromFile(rs, startTag, endTag).text)
  {
    var i := IndexOf(rs, startTag);
    if i < |rs| {
      var tail := rs[i + 1..];
      var j := IndexOf(tail, endTag);
      assert tail[..j] == rs[i + 1..i + 1 + j];
      SliceNulFree(rs, i + 1, i + 1 + j);
      FlattenNulFree(tail[..j]);
      assert ReadSectionFromFile(rs, startTag, endTag).text == Flatten(tail[..j]);
    }
  }

  /** What a scan leaves of a NUL-free stream is NUL-free. */
  lemma RestNulFree(rs: seq<string>, startTag: string, endTag: string)
    requires AllNulFree(rs)
    ensures AllNulFree(ReadSectionFromFile(rs, startTag, endTag).rest)
  {
    var r := ReadSectionFromFile(rs, startTag, endTag);
    ScanLeavesSuffix(rs, startTag, endTag);
    SliceNulFree(rs, |rs| - |r.rest|, |rs|);
    assert rs[|rs| - |r.rest|..|rs|] == r.rest;
  }

  lemma SuffixAvoidsTag<T>(rs: seq<T>, from: nat, m: nat, tag: T)
    requires from <= m <= |rs|
    requires forall k :: from <= k < |rs| ==> rs[k] != tag
    ensures IndexOf(rs[m..], tag) == |rs| - m
  {
    assert forall k :: 0 <= k < |rs| - m ==> rs[m..][k] == rs[m + k];
  }

  /** What a scan leaves unread lies wholly after the start tag it found, so a
      later scan cannot see any read at or before that tag. */
  lemma RestIsAfterStartTag(rs: seq<string>, startTag: string, endTag: string, tag: string)
    requires forall k :: IndexOf(rs, startTag) <= k < |rs| ==> rs[k] != tag
    ensures var rest := ReadSectionFromFile(rs, startTag, endTag).rest;
            IndexOf(rest, tag) == |rest|
  {
    var rest := ReadSectionFromFile(rs, startTag, endTag).rest;
    ScanLeavesSuffix(rs, startTag, endTag);
    if IndexOf(rs, startTag) < |rs| {
      SuffixAvoidsTag(rs, IndexOf(rs, startTag), |rs| - |rest|, tag);
    }
  }

  lemma {:induction false} SkipOverPrefix<T>(pre: seq<T>, tag: T, post: seq<T>)
    requires tag !in pre
    ensures SkipPastTag(pre + [tag] + post, tag) == post
  {
    if pre == [] {
      assert pre + [tag] + post == [tag] + post;
    } else {
      assert (pre + [tag] + post)[1..] == pre[1..] + [tag] + post;
      SkipOverPrefix(pre[1..], tag, post);
    }
  }

  lemma {:induction false} TakeOverBody(body: seq<string>, tag: string, post: seq<string>)
    requires tag !in body
    ensures TakeUntilTag(body + [tag] + post, tag) == Section(Flatten(body), post)
  {
    if body == [] {
      assert body + [tag] + post == [tag] + post;
    } else {
      assert (body + [tag] + post)[1..] == body[1..] + [tag] + post;
      TakeOverBody(body[1..], tag, post);
    }
  }

  lemma {:induction false} TakeToEndOfFile(body: seq<string>, tag: string)
    requires tag !in body
    ensures TakeUntilTag(body, tag) == Section(Flatten(body), [])
  {
    if body != [] {
      TakeToEndOfFile(body[1..], tag);
    }
  }

  /** Section contents: in a stream laid out as pre, start tag, body, end tag,
      post, with no start tag in pre and no end tag in body, the section is
      exactly the body and the stream is left at post. */
  lemma ExtractsBetweenTags(
    pre: seq<string>, body: seq<string>, post: seq<string>, startTag: string, endTag: string)
    requires startTag !in pre && endTag !in body
    ensures ReadSectionFromFile(pre + [startTag] + body + [endTag] + post, startTag, endTag)
            == Section(Flatten(body), post)
  {
    assert pre + [startTag] + body + [endTag] + post == pre + [startTag] + (body + [endTag] + post);
    SkipOverPrefix(pre, startTag, body + [endTag] + post);
    TakeOverBody(body, endTag, post);
  }

  /** End tag absent: every read after the start tag is appended, up to end of file. */
  lemma ExtractsToEndOfFile(
    pre: seq<string>, body: seq<string>, startTag: string, endTag: string)
    requires startTag !in pre && endTag !in body
    ensures ReadSectionFromFile(pre + [startTag] + body, startTag, endTag)
            == Section(Flatten(body), [])
  {
    SkipOverPrefix(pre, startTag, body);
    TakeToEndOfFile(body, endTag);
  }

  /** Start tag absent: the whole stream is consumed and nothing is extracted. */
  lemma StartTagAbsentYieldsNothing(rs: seq<string>, startTag: string, endTag: string)
    requires startTag !in rs
    ensures ReadSectionFromFile(rs, startTag, endTag) == Section("", [])
  {
    IndexOfFindsMember(rs, startTag);
  }

  /** The first scan `loadGLSLFile` makes over the file. */
  function VertexScan(rs: seq<string>): Section
  {
    ReadSectionFromFile(rs, VertexStartTag, VertexEndTag)
  }

  /** The second scan, over what the first one left. */
  function FragmentScan(rs: seq<string>): Section
  {
    ReadSectionFromFile(VertexScan(rs).rest, FragmentStartTag, FragmentEndTag)
  }

  /** What `loadGLSLFile` needs of its file for the C code to be defined:
      C strings throughout, and each section leaving room for its NUL in the
      source buffer (`strncat` bounds what it copies, not where it writes). */
  predicate Loadable(filename: string, text: string)
  {
    && NulFree(filename)
    && NulFree(text)
    && |VertexScan(SplitReads(text)).text| < MaxSourceSize
    && |FragmentScan(SplitReads(text)).text| < MaxSourceSize
  }

  /** `loadGLSLFile`: the name is a copy of the file name; the vertex section is
      read first and the fragment section only from what the vertex scan left. */
  function LoadGLSLFile(filename: string, text: string): (r: Shader)
    requires Loadable(filename, text)
    ensures r.name == filename
    ensures r.program == 0 && r.vertShader == 0 && r.fragShader == 0
    ensures NulFree(r.vertSource) && NulFree(r.fragSource)
    ensures |r.vertSource| < MaxSourceSize && |r.fragSource| < MaxSourceSize
  {
    var rs := SplitReads(text);
    FlattenNulFree(rs);
    SectionNulFree(rs, VertexStartTag, VertexEndTag);
    RestNulFree(rs, VertexStartTag, VertexEndTag);
    SectionNulFree(VertexScan(rs).rest, FragmentStartTag, FragmentEndTag);
    Shader(0, 0, 0, filename, VertexScan(rs).text, FragmentScan(rs).text)
  }

  /** The fragment scan starts where the vertex scan stopped, so a fragment
      start tag that only occurs before the vertex start tag is never seen. */
  lemma FragmentScanMissesEarlierTag(rs: seq<string>)
    requires forall k :: IndexOf(rs, VertexStartTag) <= k < |rs| ==> rs[k] != FragmentStartTag
    ensures FragmentScan(rs).text == ""
  {
    RestIsAfterStartTag(rs, VertexStartTag, VertexEndTag, FragmentStartTag);
  }

  /** Loading one file: a file with no fragment start tag at or after its
      vertex start tag loads an empty fragment source, whatever precedes the
      vertex block. */
  lemma FragmentBeforeVertexIsLost(filename: string, text: string)
    requires Loadable(filename, text)
    requires forall k :: IndexOf(SplitReads(text), VertexStartTag) <= k < |SplitReads(text)| ==>
               SplitReads(text)[k] != FragmentStartTag
    ensures LoadGLSLFile(filename, text).fragSource == ""
  {
    FragmentScanMissesEarlierTag(SplitReads(text));
  }

  /** Each tag is one physical line that fits a single read. */
  lemma TagsAreShortLines()
    ensures IsShortLine(VertexStartTag) && IsShortLine(VertexEndTag)
    ensures IsShortLine(FragmentStartTag) && IsShortLine(FragmentEndTag)
  {
  }

  lemma ConcatAssociates<T>(a: seq<T>, b: seq<T>, c: seq<T>)
    ensures a + (b + c) == a + b + c
  {
  }

  /** A tag line at a line boundary comes back as a read of its own. */
  lemma TagLineIsOneRead(pre: string, tag: string, post: string)
    requires EndsLine(pre) && IsShortLine(tag)
    ensures SplitReads(pre + tag + post) == SplitReads(pre) + [tag] + SplitReads(post)
  {
    var line := tag + post;
    assert pre + tag + post == pre + line;
    SplitAtLineBoundary(pre, line);
    ShortLineIsOneRead(tag, post);
    ConcatAssociates(SplitReads(pre), [tag], SplitReads(post));
  }

  /** Both scans over a stream laid out as the single-file format prescribes. */
  lemma ScansWellFormedStream(
    pre: seq<string>, vbody: seq<string>, mid: seq<string>, fbody: seq<string>, post: seq<string>)
    requires VertexStartTag !in pre && VertexEndTag !in vbody
    requires FragmentStartTag !in mid && FragmentEndTag !in fbody
    ensures var rs := pre + [VertexStartTag] + vbody + [VertexEndTag]
                      + mid + [FragmentStartTag] + fbody + [FragmentEndTag] + post;
            VertexScan(rs).text == Flatten(vbody) && FragmentScan(rs).text == Flatten(fbody)
  {
    var rest := mid + [FragmentStartTag] + fbody + [FragmentEndTag] + post;
    var rs := pre + [VertexStartTag] + vbody + [VertexEndTag] + mid
              + [FragmentStartTag] + fbody + [FragmentEndTag] + post;
    assert rs == pre + [VertexStartTag] + vbody + [VertexEndTag] + rest;
    ExtractsBetweenTags(pre, vbody, rest, VertexStartTag, VertexEndTag);
    ExtractsBetweenTags(mid, fbody, post, FragmentStartTag, FragmentEndTag);
  }

  /** The single-file shader format: free text, the vertex block between its
      tags, free text, the fragment block between its tags, free text. */
  function ShaderFile(pre: string, vbody: string, mid: string, fbody: string, post: string): string
  {
    pre + VertexStartTag + (vbody + VertexEndTag + (mid + FragmentStartTag
    + (fbody + FragmentEndTag + post)))
  }

  lemma ReadLayoutNests(
    pre: seq<string>, vbody: seq<string>, mid: seq<string>, fbody: seq<string>, post: seq<string>)
    ensures pre + [VertexStartTag] + (vbody + [VertexEndTag] + (mid + [FragmentStartTag]
            + (fbody + [FragmentEndTag] + post)))
            == pre + [VertexStartTag] + vbody + [VertexEndTag] + mid + [FragmentStartTag]
               + fbody + [FragmentEndTag] + post
  {
  }

  /** The reads of a single-file shader: the tags come back as reads of their own. */
  lemma SplitsWellFormedFile(pre: string, vbody: string, mid: string, fbody: string, post: string)
    requires EndsLine(pre) && EndsLine(vbody) && EndsLine(mid) && EndsLine(fbody)
    ensures SplitReads(ShaderFile(pre, vbody, mid, fbody, post))
            == SplitReads(pre) + [VertexStartTag] + SplitReads(vbody) + [VertexEndTag]
               + SplitReads(mid) + [FragmentStartTag] + SplitReads(fbody) + [FragmentEndTag]
               + SplitReads(post)
  {
    TagsAreShortLines();
    var r3 := fbody + FragmentEndTag + post;
    var r2 := mid + FragmentStartTag + r3;
    var r1 := vbody + VertexEndTag + r2;
    TagLineIsOneRead(fbody, FragmentEndTag, post);
    TagLineIsOneRead(mid, FragmentStartTag, r3);
    TagLineIsOneRead(vbody, VertexEndTag, r2);
    TagLineIsOneRead(pre, VertexStartTag, r1);
    ReadLayoutNests(SplitReads(pre), SplitReads(vbody), SplitReads(mid), SplitReads(fbody),
                    SplitReads(post));
  }

  /** Loading a well-formed file: when the vertex and fragment blocks stand on
      lines of their own, in that order, and no block holds a read equal to its
      own end tag, the loaded sources are exactly the text between the tags. */
  lemma LoadsWellFormedFile(
    filename: string, pre: string, vbody: string, mid: string, fbody: string, post: string)
    requires NulFree(filename)
    requires NulFree(ShaderFile(pre, vbody, mid, fbody, post))
    requires EndsLine(pre) && EndsLine(vbody) && EndsLine(mid) && EndsLine(fbody)
    requires VertexStartTag !in SplitReads(pre) && VertexEndTag !in SplitReads(vbody)
    requires FragmentStartTag !in SplitReads(mid) && FragmentEndTag !in SplitReads(fbody)
    requires |vbody| < MaxSourceSize && |fbody| < MaxSourceSize
    ensures var text := ShaderFile(pre, vbody, mid, fbody, post);
            && Loadable(filename, text)
            && LoadGLSLFile(filename, text) == Shader(0, 0, 0, filename, vbody, fbody)
  {
    SplitsWellFormedFile(pre, vbody, mid, fbody, post);
    ScansWellFormedStream(SplitReads(pre), SplitReads(vbody), SplitReads(mid),
                          SplitReads(fbody), SplitReads(post));
  }
}
